=== FILE: README.md ===
# DNS `dig` result matcher of the multi-client DNS-SD border-router test

The multi-client DNS-SD test of the border router has a Wi-Fi host publish
its name and addresses. It then asks the border router, with the `dig`
query tool, for the host's AAAA record. The test compares the parsed
response against an expectation with four helpers. This project models
those helpers and proves what they promise.

- **Record matching.** A captured record is a tuple of fields. It matches
  a pattern when every position both tuples have is equal, or holds a
  predicate in the pattern that accepts the captured value. A captured
  record that itself holds a predicate is the matcher's own assertion
  failure.
- **Answer preparation.** Answer and additional records lose their TTL
  (position 1) first. When position 2 reads `AAAA`, the address at
  position 3 is read into an address value, on the captured record and on
  the pattern alike. Two spellings of one address therefore match. Question
  records are compared as they are.
- **The section checks.** These run in a fixed order:
  1. opcode, which defaults to `QUERY`;
  2. status, which defaults to `NOERROR`;
  3. QUESTION, which must have exactly the expected number of records;
  4. ANSWER, which must also have exactly the expected number;
  5. ADDITIONAL, which must have at least the expected number.

  Within a section, every expected pattern must be matched by some
  captured record. The same record may serve several patterns. A section
  the expectation leaves out is not read.
- **The scenario.** The test queries `wifi-host.default.service.arpa.` for
  AAAA and expects the routable address `2402::abcd`.

Faults that the test raises are values of the model, not preconditions:
- `InvariantViolation` for the assertion at line 174;
- `FieldMissing` for an index error on a short record;
- `BadAddress` for an address the library rejects.

A failed check is a `Failure` value that names the check that failed.

Modules:
- `Wrappers`: `Option` and `Result`.
- `Ipv6Text`: reads and writes IPv6 address text as Python's standard `ipaddress` module does. It accepts the forms of section 2.2 of RFC 4291 and writes the canonical compressed form. The module lies outside the test file, so the model follows CPython's `ipaddress` step by step: split, IPv4 tail, the one `::`, and the compression of the first longest zero run. An IPv4 tail with a leading zero in an octet is rejected (`ParseOctet`), as in CPython 3.9.5 and later.
- `RecordMatcher`: `_match_record`, TTL removal and AAAA conversion.
- `SectionVerifier`: `_assert_have_question`, `_assert_have_answer` and `_assert_dig_result_matches`. Each is an imperative method proved against a specification function (`FindQuestion`, `FindAnswer`, `Verify`).
- `SectionProperties`: what the verifier means. Search results are characterised by "some record matches". Success is equivalent to every stated constraint holding, provided nothing raises. The module also proves the order of the checks (opcode, status, QUESTION, ANSWER, ADDITIONAL, and within each section the count before the patterns), which pattern a "not found" failure names, the cardinality rules, TTL irrelevance and order irrelevance.
- `MultiClientScenario`: the concrete expectation of the test and the responses that meet or fail it. It also shows that matching is not one-to-one: one captured record meets two patterns (`FirstAnswerMeetsBoth`, `OneRecordMeetsTwoPatterns`).

The matcher itself accepts a predicate in any position of an expected record (line 179). The answer helper is different: before matching, it hands position 3 of an expected AAAA record to the address constructor (line 163). That constructor rejects a predicate, so the check raises instead of asking the predicate. The model keeps that behaviour (`RecordMatcher.PredicateInAddressSlotRaises`, `MultiClientScenario.PredicateForAddressRaises`).

## Model

| member | source | states |
|---|---|---|
| RecordMatcher.MatchRecord | tests/scripts/thread-cert/border_router/test_dnssd_server_multi_client.py:173-179 | It raises exactly when the captured record holds a predicate. Otherwise it is true exactly when every position both tuples have is equal, or holds a pattern predicate that accepts the captured value. The whole-tuple fast path never changes that answer. |
| RecordMatcher.MatchReflexive | tests/scripts/thread-cert/border_router/test_dnssd_server_multi_client.py:176-177 | A record without predicates matches itself. |
| RecordMatcher.MatchIgnoresExtraFields | tests/scripts/thread-cert/border_router/test_dnssd_server_multi_client.py:179 | The zip stops at the shorter tuple. Extra fields on the pattern never change the result. Extra fields on a captured record never change it either, unless the record or the extra fields hold a predicate (then the matcher raises). |
| RecordMatcher.PredicateTransparency | tests/scripts/thread-cert/border_router/test_dnssd_server_multi_client.py:179 | A predicate at position i of a pattern decides that position alone. The record matches exactly when the predicate accepts its value there and every other shared position matches. |
| RecordMatcher.NormalizeAaaa | tests/scripts/thread-cert/border_router/test_dnssd_server_multi_client.py:159-163 | A record shorter than three fields is an index error. When position 2 is not `AAAA`, the record is returned unchanged. When it is, a record of three fields is an index error. Otherwise it succeeds exactly when position 3 is a value that reads as an address, and position 3 then becomes that address. Failure there is an address error. Every other position and the length are kept. |
| RecordMatcher.NormalizeIdempotent | tests/scripts/thread-cert/border_router/test_dnssd_server_multi_client.py:156-163 | Converting a pattern's address again, as the answer loop does on every round, changes nothing. |
| RecordMatcher.AddressSlotRead | tests/scripts/thread-cert/border_router/test_dnssd_server_multi_client.py:162-163 | Text at position 3 of an AAAA record that reads as an address is replaced by that address. |
| RecordMatcher.SpellingIrrelevant | tests/scripts/thread-cert/border_router/test_dnssd_server_multi_client.py:159-163 | Two spellings of one address normalize to the same record. Normalization succeeds exactly when the text reads as an address. |
| RecordMatcher.PredicateInAddressSlotRaises | tests/scripts/thread-cert/border_router/test_dnssd_server_multi_client.py:162-163 | A predicate at the address position of an AAAA pattern raises an address error. |
| RecordMatcher.DropTtl | tests/scripts/thread-cert/border_router/test_dnssd_server_multi_client.py:154 | Position 1 is removed: the result is one shorter, position 0 stays, and every later position moves down by one. Records of fewer than two fields are kept as they are. |
| RecordMatcher.ToAddress | tests/scripts/thread-cert/border_router/test_dnssd_server_multi_client.py:160-163 | An address value converts to itself. The library writes it out and reads it back, which `Ipv6Text.FormatParseRoundTrip` proves gives the same address. Text converts as `Ipv6Text.ParseAddress` reads it. |
| RecordMatcher.PrepareAnswer | tests/scripts/thread-cert/border_router/test_dnssd_server_multi_client.py:153-163 | A captured answer shorter than four fields is an index error. Otherwise its TTL is dropped. If the record type is not `AAAA`, that is the whole result. An `AAAA` record of four fields is an index error. An `AAAA` record of five or more fields succeeds exactly when its address field reads as an address; it then holds that address in place of the text, and otherwise the outcome is an address error. On success the result is one field shorter, the owner stays first, and every position except the address moves down by one. |
| RecordMatcher.DropTtlForgetsTtl | tests/scripts/thread-cert/border_router/test_dnssd_server_multi_client.py:154 | Removing position 1 makes records that differ only there equal. |
| RecordMatcher.TtlIrrelevant | tests/scripts/thread-cert/border_router/test_dnssd_server_multi_client.py:153-160 | Captured answers that differ only in their TTL prepare to the same result. |
| Ipv6Text.ParseAddress | tests/scripts/thread-cert/border_router/test_dnssd_server_multi_client.py:160 | Empty text is rejected, and so is text that splits on ':' into fewer than three parts or more than nine. Its meaning on eight groups written out is stated by `ReadFullText`, on `x::y` by `ReadCompressedText`, on six groups and a dotted IPv4 tail by `ReadIp4TailText`, and on canonical text by `FormatParseRoundTrip`. |
| Ipv6Text.FormatAddress | tests/scripts/thread-cert/border_router/test_dnssd_server_multi_client.py:163 | The canonical text holds only lower-case hexadecimal digits and colons. `FormatParseRoundTrip` proves it reads back as the address. |
| Ipv6Text.CompressChoosesFirstLongest | tests/scripts/thread-cert/border_router/test_dnssd_server_multi_client.py:163 | The zero run written as "::" is a longest run of zero groups, and no run that long starts earlier. |
| Ipv6Text.ParseHextet | tests/scripts/thread-cert/border_router/test_dnssd_server_multi_client.py:160 | A group is read exactly when it is one to four hexadecimal digits, and then as their value. |
| Ipv6Text.ToHex | tests/scripts/thread-cert/border_router/test_dnssd_server_multi_client.py:160 | A group is written as lower-case hexadecimal digits that denote it, without leading zeros. It is written "0" exactly when it is zero. |
| Ipv6Text.ParseToHex | tests/scripts/thread-cert/border_router/test_dnssd_server_multi_client.py:160 | A written group reads back as itself and holds no separator. |
| Ipv6Text.SplitJoin | tests/scripts/thread-cert/border_router/test_dnssd_server_multi_client.py:160 | Splitting on a separator undoes joining with it. |
| Ipv6Text.ParseHextets | tests/scripts/thread-cert/border_router/test_dnssd_server_multi_client.py:160 | The groups are read exactly when every part is a group text, and then part by part. |
| Ipv6Text.ReadJoinedParts | tests/scripts/thread-cert/border_router/test_dnssd_server_multi_client.py:160 | Text joined from separator-free parts is read part by part. |
| Ipv6Text.ReadFullText | tests/scripts/thread-cert/border_router/test_dnssd_server_multi_client.py:160 | Eight group texts joined by colons read as those groups. |
| Ipv6Text.ReadCompressedText | tests/scripts/thread-cert/border_router/test_dnssd_server_multi_client.py:160 | `x::y` reads as the groups of x, enough zero groups to make eight, then the groups of y. |
| Ipv6Text.ReadIp4 | tests/scripts/thread-cert/border_router/test_dnssd_server_multi_client.py:160 | Four octets joined by dots read as the 32-bit value they spell, most significant octet first. |
| Ipv6Text.ReadIp4TailText | tests/scripts/thread-cert/border_router/test_dnssd_server_multi_client.py:160 | Six group texts followed by a dotted IPv4 tail read as the six groups, then the high and the low octet pair of the IPv4 value. |
| Ipv6Text.CompressedRoundTrip | tests/scripts/thread-cert/border_router/test_dnssd_server_multi_client.py:160 | Canonical text with a compressed zero run reads back as the address. |
| Ipv6Text.FormatParseRoundTrip | tests/scripts/thread-cert/border_router/test_dnssd_server_multi_client.py:163 | Reading the canonical text of an address gives the address back. This is what makes a converted pattern convert again to itself. |
| SectionVerifier.AssertHaveQuestion | tests/scripts/thread-cert/border_router/test_dnssd_server_multi_client.py:144-149 | The question loop returns the first match, the first fault, or not found, as the question search defines. |
| SectionVerifier.AssertHaveAnswer | tests/scripts/thread-cert/border_router/test_dnssd_server_multi_client.py:151-171 | The answer loop drops the TTL and converts AAAA addresses on both sides, re-converting the pattern each round. It returns exactly the answer search's result. |
| SectionVerifier.FindAllQuestions | tests/scripts/thread-cert/border_router/test_dnssd_server_multi_client.py:188-189 | The loop returns the question loop's outcome. By `AllQuestionsFoundFirstMiss`, that is success exactly when every pattern is found. Otherwise it names the first pattern not found, every earlier one having been found, or carries the first fault. |
| SectionVerifier.CheckQuestionSection | tests/scripts/thread-cert/border_router/test_dnssd_server_multi_client.py:185-189 | It returns the question check's outcome. By `QuestionSectionThird`, a count that differs from the expected one is the outcome whatever the patterns hold. The patterns are searched only after the count passes. |
| SectionVerifier.FindAllAnswers | tests/scripts/thread-cert/border_router/test_dnssd_server_multi_client.py:194-201 | The loop returns the answer loop's outcome. By `AllAnswersFoundFirstMiss`, that is success exactly when every pattern is found. Otherwise it names the first pattern not found, as an ANSWER or ADDITIONAL failure according to the section, or carries the first fault. |
| SectionVerifier.CheckAnswerSection | tests/scripts/thread-cert/border_router/test_dnssd_server_multi_client.py:191-201 | It returns the answer or additional check's outcome. ANSWER needs the exact count, ADDITIONAL at least the expected count, and the count is checked before any pattern (`AnswerSectionFourth`, `AdditionalSectionLast`). |
| SectionVerifier.AssertDigResultMatches | tests/scripts/thread-cert/border_router/test_dnssd_server_multi_client.py:181-203 | It returns the whole check's outcome. The order opcode, status, QUESTION, ANSWER, ADDITIONAL is proved by `OpcodeAndStatusFirst`, `QuestionSectionThird`, `AnswerSectionFourth` and `AdditionalSectionLast`. |
| SectionProperties.FindQuestionMeaning | tests/scripts/thread-cert/border_router/test_dnssd_server_multi_client.py:144-149 | Found only when some record matches. Not found exactly when no record holds a predicate and none matches. Otherwise the matcher's assertion is raised. |
| SectionProperties.QuestionFoundIffSomeRecordMatches | tests/scripts/thread-cert/border_router/test_dnssd_server_multi_client.py:144-149 | In a predicate-free section, a question is found exactly when some record matches it, compared raw. |
| SectionProperties.FindAnswerRenormalized | tests/scripts/thread-cert/border_router/test_dnssd_server_multi_client.py:156-163 | Searching with the pattern as the previous round left it is the same as searching with the original pattern. |
| SectionProperties.FindAnswerStep | tests/scripts/thread-cert/border_router/test_dnssd_server_multi_client.py:152-174 | One round of the answer loop: found on a match, otherwise the rest of the section is searched. Otherwise the round raises, in source order: the captured record's own fault when it does not prepare, else the pattern's fault when it does not convert, else the matcher's assertion (`InvariantViolation`) when the prepared record holds a predicate. |
| SectionProperties.RaisedNamesFirstUncleanRound | tests/scripts/thread-cert/border_router/test_dnssd_server_multi_client.py:152-174 | A raised answer search names the first round that could not compare. Every earlier record prepared cleanly, the pattern converted, and the record did not match it. The fault is that round's, taken in the order captured record, pattern, assertion. |
| SectionProperties.FoundMeansSomeRecordMatches | tests/scripts/thread-cert/border_router/test_dnssd_server_multi_client.py:165-166 | An answer is found only when some captured record matches it. |
| SectionProperties.NotFoundMeansNoRecordMatches | tests/scripts/thread-cert/border_router/test_dnssd_server_multi_client.py:152-171 | Not found holds exactly when every record prepares cleanly and none matches. Unless the section is empty, the pattern must also prepare. An empty section is never found. |
| SectionProperties.AnswerFoundIffSomeRecordMatches | tests/scripts/thread-cert/border_router/test_dnssd_server_multi_client.py:151-171 | When nothing raises, an answer is found exactly when some captured record matches it. |
| SectionProperties.RaisedNeedsUncleanRecord | tests/scripts/thread-cert/border_router/test_dnssd_server_multi_client.py:159-165 | The answer search raises only on a record or pattern that does not prepare cleanly. |
| SectionProperties.FoundIgnoresLaterRecords | tests/scripts/thread-cert/border_router/test_dnssd_server_multi_client.py:165-166 | The first match ends the search. Records after it are never read. |
| SectionProperties.FindAnswerIgnoresTtl | tests/scripts/thread-cert/border_router/test_dnssd_server_multi_client.py:154 | Sections that differ only in TTLs give the same answer search result. |
| SectionProperties.AllQuestionsFoundSound | tests/scripts/thread-cert/border_router/test_dnssd_server_multi_client.py:188-189 | Passing the question loop means every pattern is matched by some record. |
| SectionProperties.AllQuestionsFoundComplete | tests/scripts/thread-cert/border_router/test_dnssd_server_multi_client.py:188-189 | In a predicate-free section, every pattern being matched by some record means the question loop passes. |
| SectionProperties.AllAnswersFoundSound | tests/scripts/thread-cert/border_router/test_dnssd_server_multi_client.py:194-201 | Passing the answer loop means every pattern is matched by some record. |
| SectionProperties.AllAnswersFoundComplete | tests/scripts/thread-cert/border_router/test_dnssd_server_multi_client.py:194-201 | When nothing raises, every pattern being matched by some record means the answer loop passes. |
| SectionProperties.AllQuestionsFoundFirstMiss | tests/scripts/thread-cert/border_router/test_dnssd_server_multi_client.py:188-189 | The question loop succeeds exactly when every pattern is found. It fails only by naming a pattern or by a fault. A named pattern is the first one not found: every earlier pattern was found. A fault is what the search for some pattern raised, every earlier pattern having been found. |
| SectionProperties.AllAnswersFoundFirstMiss | tests/scripts/thread-cert/border_router/test_dnssd_server_multi_client.py:194-201 | The same for the answer loop. A named pattern is reported as an ANSWER failure for the answer section and as an ADDITIONAL failure for the additional section. |
| SectionProperties.CheckQuestionsFailures | tests/scripts/thread-cert/border_router/test_dnssd_server_multi_client.py:185-189 | The question check fails only with a count mismatch, a pattern not found or a fault. A pattern not found comes with equal counts and is the first pattern the search does not find. |
| SectionProperties.CheckAnswersFailures | tests/scripts/thread-cert/border_router/test_dnssd_server_multi_client.py:191-201 | The answer check fails only with ANSWER failures or a fault, and the additional check only with ADDITIONAL failures or a fault. A pattern not found comes with the count the section needs (equal for ANSWER, at least as many records for ADDITIONAL) and is the first pattern the search does not find. |
| SectionProperties.VerifyMeaning | tests/scripts/thread-cert/border_router/test_dnssd_server_multi_client.py:181-201 | Success implies that opcode, status, every section count and every pattern are satisfied. When nothing raises, the converse also holds. |
| SectionProperties.OpcodeAndStatusFirst | tests/scripts/thread-cert/border_router/test_dnssd_server_multi_client.py:182-183 | Opcode and status default to QUERY and NOERROR and are checked first. A mismatch there is the outcome whatever the sections hold. |
| SectionProperties.QuestionSectionThird | tests/scripts/thread-cert/border_router/test_dnssd_server_multi_client.py:185-189 | Once opcode and status match, a failed question check is the outcome. A question count that differs from the expected one is the outcome whatever the patterns hold. A "question not found" outcome comes with equal counts and names the first pattern not found, which no question record matches. |
| SectionProperties.AnswerSectionFourth | tests/scripts/thread-cert/border_router/test_dnssd_server_multi_client.py:191-195 | Once opcode and status match, an ANSWER failure implies the question check passed. After it passes, an answer count that differs from the expected one is the outcome whatever the patterns hold, and a failed answer check is the outcome. An "answer not found" outcome comes with equal counts and names the first pattern not found. |
| SectionProperties.AdditionalSectionLast | tests/scripts/thread-cert/border_router/test_dnssd_server_multi_client.py:197-201 | Once opcode and status match, an ADDITIONAL failure implies the question and answer checks passed. After both pass, the additional check decides the outcome, and fewer additional records than expected patterns fails its count. An "additional not found" outcome comes with at least as many records as patterns and names the first pattern not found. |
| SectionProperties.AbsentSectionNotChecked | tests/scripts/thread-cert/border_router/test_dnssd_server_multi_client.py:185-201 | A section the expectation leaves out can hold anything. |
| SectionProperties.ExtraQuestionFails | tests/scripts/thread-cert/border_router/test_dnssd_server_multi_client.py:186 | One question record too many fails the exact count. |
| SectionProperties.ExtraAnswerFails | tests/scripts/thread-cert/border_router/test_dnssd_server_multi_client.py:192 | One answer record too many fails the exact count. |
| SectionProperties.AllAnswersFoundIgnoresLaterRecords | tests/scripts/thread-cert/border_router/test_dnssd_server_multi_client.py:200-201 | Additional patterns found in a section are still found with more records appended. |
| SectionProperties.ExtraAdditionalAccepted | tests/scripts/thread-cert/border_router/test_dnssd_server_multi_client.py:197-201 | ADDITIONAL needs only at least the expected count. A passing response still passes with more additional records. |
| SectionProperties.AllAnswersFoundIgnoresTtl | tests/scripts/thread-cert/border_router/test_dnssd_server_multi_client.py:154 | The answer loop's outcome does not depend on TTLs. |
| SectionProperties.VerifyIgnoresTtl | tests/scripts/thread-cert/border_router/test_dnssd_server_multi_client.py:154 | Responses whose answer and additional records differ only in TTLs get the same outcome. |
| SectionProperties.QuestionFoundCarriesOver | tests/scripts/thread-cert/border_router/test_dnssd_server_multi_client.py:145-147 | A question found in one section is found in any predicate-free section holding all of its records. |
| SectionProperties.QuestionOrderIrrelevant | tests/scripts/thread-cert/border_router/test_dnssd_server_multi_client.py:145-147 | Question sections with the same records in any order give the same result. |
| SectionProperties.AnswerFoundCarriesOver | tests/scripts/thread-cert/border_router/test_dnssd_server_multi_client.py:152-166 | An answer found in one section is found in any cleanly preparing section holding all of its records. |
| SectionProperties.AnswerOrderIrrelevant | tests/scripts/thread-cert/border_router/test_dnssd_server_multi_client.py:152-166 | Answer sections with the same records in any order give the same result. |
| MultiClientScenario.RoutableAddressText | tests/scripts/thread-cert/border_router/test_dnssd_server_multi_client.py:120 | `2402::abcd` reads as 2402, six zero groups, then abcd. |
| MultiClientScenario.RoutableAddressInFull | tests/scripts/thread-cert/border_router/test_dnssd_server_multi_client.py:120 | The same address with every group written out reads the same. |
| MultiClientScenario.QuestionSectionPasses | tests/scripts/thread-cert/border_router/test_dnssd_server_multi_client.py:138 | A response echoing the question `(wifi-host.default.service.arpa., IN, AAAA)` passes the question check. |
| MultiClientScenario.CapturedAnswerMatches | tests/scripts/thread-cert/border_router/test_dnssd_server_multi_client.py:151-166 | A captured answer, whatever its TTL, matches the expected answer when their address texts read as the same address. Neither raises. |
| MultiClientScenario.OnlyAnswerMatches | tests/scripts/thread-cert/border_router/test_dnssd_server_multi_client.py:181-195 | A NOERROR response whose one answer matches the one expected answer meets the expectation. |
| MultiClientScenario.ExpectationMetBySpelling | tests/scripts/thread-cert/border_router/test_dnssd_server_multi_client.py:135-140 | Any TTL and any spelling of the expected address meets the test's expectation. |
| MultiClientScenario.ExpectationMet | tests/scripts/thread-cert/border_router/test_dnssd_server_multi_client.py:135-140 | A response writing `2402:0:0:0:0:0:0:abcd` meets the expectation written with `2402::abcd`. |
| MultiClientScenario.SecondAnswerFails | tests/scripts/thread-cert/border_router/test_dnssd_server_multi_client.py:191-192 | Two answer records fail the expectation's exact count of one, whatever they hold. |
| MultiClientScenario.PredicateForAddressRaises | tests/scripts/thread-cert/border_router/test_dnssd_server_multi_client.py:162-163 | For a response whose one answer is the host's AAAA record, a predicate in place of the expected address raises an address error, whatever TTL and address text that answer carries. |
| MultiClientScenario.FirstAnswerMeetsBoth | tests/scripts/thread-cert/border_router/test_dnssd_server_multi_client.py:194-195 | One record matching two patterns meets both. The record beside it is never read. |
| MultiClientScenario.OneRecordMeetsTwoPatterns | tests/scripts/thread-cert/border_router/test_dnssd_server_multi_client.py:194-195 | The address as written and as respelled are both met by the first captured answer. Matching is not one-to-one. |

## Left out

- The simulated network and the border routers: the service publishing and resolution at lines 95-133, and the `dig` run at line 135. The parsed response is a parameter.
- The diagnostic print at lines 168-169 and the log line at 203. They do not affect the outcome.
- Failure messages of the test framework's assertions. A failure is a `Failure` value naming the check that failed.
- Predicates are total functions from a value to a boolean. A predicate that raises or returns a non-boolean is not modelled.
- Python equality between a list and a tuple (line 176). The fast path is proved never to change the result, so the types of the captured tuples do not matter.
- The address constructor's integer and byte arguments, and scope identifiers (`%zone`). The test passes text or an address, never a scope.
- IPv4-mapped addresses: recent versions of the library write these with a dotted IPv4 tail. The model writes every address in groups. Only the text written for an address changes, not the address read back, so matching is unaffected.
- Ipv6Text.ParseAddress: a compressed address with a dotted IPv4 tail (such as `::ffff:1.2.3.4`) is read by the same steps, but no lemma states the result for that form. Only the form with six groups written out before the tail is stated, by `ReadIp4TailText`. The test's addresses have no IPv4 tail.
- `wifi_host_linklocal_address` (line 119): it is published but never queried in this check.
- The other scenario file in the repository is not part of this model.

=== FILE: ipv6_text.dfy ===
/**
 * IPv6 addresses and their text forms, as the matcher's address library
 * reads and writes them.
 *
 * Reading accepts the three forms of section 2.2 of RFC 4291: eight groups of
 * one to four hexadecimal digits, one "::" standing for a run of zero groups,
 * and a dotted-decimal IPv4 tail in place of the last two groups. The rules
 * follow the library's parser step by step (split on ':', convert an IPv4
 * tail, find the one empty inner part, count the groups on each side).
 * Writing gives the canonical form: lower-case groups without leading zeros,
 * with the first longest run of two or more zero groups written as "::".
 */
module Ipv6Text {
  import opened Wrappers

  /** One 16-bit group of an address. */
  type Hextet = n: int | 0 <= n < 0x1_0000

  /** An address as its eight groups, most significant first. */
  type Address = s: seq<Hextet> | |s| == 8 witness [0, 0, 0, 0, 0, 0, 0, 0]

  const GROUPS: nat := 8

  // ---------------------------------------------------------------------------
  // Digits

  predicate IsHexDigit(c: char) {
    '0' <= c <= '9' || 'a' <= c <= 'f' || 'A' <= c <= 'F'
  }

  /** A digit as the library writes it: never upper case. */
  predicate IsLowerHexDigit(c: char) {
    '0' <= c <= '9' || 'a' <= c <= 'f'
  }

  predicate AllHex(s: string) {
    forall i :: 0 <= i < |s| ==> IsHexDigit(s[i])
  }

  function HexDigitValue(c: char): (d: nat)
    requires IsHexDigit(c)
    ensures d < 16
  {
    if '0' <= c <= '9' then c as int - '0' as int
    else if 'a' <= c <= 'f' then c as int - 'a' as int + 10
    else c as int - 'A' as int + 10
  }

  /** The lower-case digit for `d`. */
  function HexDigit(d: nat): (c: char)
    requires d < 16
    ensures IsHexDigit(c) && HexDigitValue(c) == d
    ensures IsLowerHexDigit(c)
    ensures c == '0' <==> d == 0
  {
    if d < 10 then ('0' as int + d) as char else ('a' as int + d - 10) as char
  }

  function Pow16(n: nat): (p: nat)
    ensures p >= 1
  {
    if n == 0 then 1 else 16 * Pow16(n - 1)
  }

  /** The number a string of hexadecimal digits denotes, read left to right. */
  function HexValue(s: string): (v: nat)
    requires AllHex(s)
    ensures v < Pow16(|s|)
  {
    if s == [] then 0 else HexValue(s[..|s| - 1]) * 16 + HexDigitValue(s[|s| - 1])
  }

  /** A group as the parser accepts it: one to four hexadecimal digits. */
  predicate IsGroupText(s: string) {
    1 <= |s| <= 4 && AllHex(s)
  }

  lemma GroupTextHasNoSeparator(s: string)
    requires AllHex(s)
    ensures ':' !in s && '.' !in s
  {
  }

  /** Reads one group; `None` where the library raises (an empty group among them). */
  function ParseHextet(s: string): (r: Option<Hextet>)
    ensures r.Some? <==> IsGroupText(s)
    ensures r.Some? ==> r.value == HexValue(s)
  {
    if !AllHex(s) then None
    else if |s| > 4 then None
    else if s == [] then None
    else
      assert Pow16(|s|) <= Pow16(4) by {
        if |s| < 4 { assert Pow16(3) == 4096; assert Pow16(2) == 256; assert Pow16(1) == 16; }
      }
      Some(HexValue(s))
  }

  /** The library's `'%x' % n`: lower-case hexadecimal without leading zeros. */
  function ToHex(n: nat): (s: string)
    ensures 1 <= |s| && AllHex(s) && HexValue(s) == n
    ensures forall i :: 0 <= i < |s| ==> IsLowerHexDigit(s[i])
    ensures |s| > 1 ==> s[0] != '0'
    ensures s == "0" <==> n == 0
    decreases n
  {
    if n < 16 then [HexDigit(n)]
    else
      var s := ToHex(n / 16) + [HexDigit(n % 16)];
      assert s[..|s| - 1] == ToHex(n / 16);
      s
  }

  /** No leading zeros: a number below 16^k takes at most k digits. */
  lemma {:induction false} ToHexLength(n: nat, k: nat)
    requires 1 <= k && n < Pow16(k)
    ensures |ToHex(n)| <= k
    decreases n
  {
    if n >= 16 {
      assert Pow16(1) == 16;
      assert k >= 2;
      assert n / 16 < Pow16(k - 1);
      ToHexLength(n / 16, k - 1);
    }
  }

  /** The text written for a group is read back as that group, and holds no separator. */
  lemma ParseToHex(h: Hextet)
    ensures ParseHextet(ToHex(h)) == Some(h)
    ensures ':' !in ToHex(h) && '.' !in ToHex(h)
  {
    assert Pow16(4) == 0x1_0000;
    ToHexLength(h, 4);
    GroupTextHasNoSeparator(ToHex(h));
  }

  predicate IsDecDigit(c: char) {
    '0' <= c <= '9'
  }

  predicate AllDec(s: string) {
    forall i :: 0 <= i < |s| ==> IsDecDigit(s[i])
  }

  function DecValue(s: string): nat
    requires AllDec(s)
  {
    if s == [] then 0 else DecValue(s[..|s| - 1]) * 10 + (s[|s| - 1] as int - '0' as int)
  }

  // ---------------------------------------------------------------------------
  // Splitting and joining on a separator

  /** The library's `s.split(sep)`: the empty string gives one empty part. */
  function Split(s: string, sep: char): (parts: seq<string>)
    ensures |parts| >= 1
    ensures forall i :: 0 <= i < |parts| ==> sep !in parts[i]
  {
    if s == [] then [[]]
    else
      var rest := Split(s[1..], sep);
      if s[0] == sep then [[]] + rest else [[s[0]] + rest[0]] + rest[1..]
  }

  /** The library's `sep.join(parts)`. */
  function Join(parts: seq<string>, sep: char): string
  {
    if parts == [] then []
    else if |parts| == 1 then parts[0]
    else parts[0] + [sep] + Join(parts[1..], sep)
  }

  lemma {:induction false} SplitWithoutSeparator(s: string, sep: char)
    requires sep !in s
    ensures Split(s, sep) == [s]
  {
    if s != [] {
      SplitWithoutSeparator(s[1..], sep);
      assert [s[0]] + s[1..] == s;
    }
  }

  lemma {:induction false} SplitAfterFirst(x: string, sep: char, y: string)
    requires sep !in x
    ensures Split(x + [sep] + y, sep) == [x] + Split(y, sep)
  {
    var s := x + [sep] + y;
    if x == [] {
      assert s[1..] == y;
    } else {
      assert s[1..] == x[1..] + [sep] + y;
      SplitAfterFirst(x[1..], sep, y);
      assert [x[0]] + x[1..] == x;
    }
  }

  /** Splitting undoes joining when no part holds the separator. */
  lemma {:induction false} SplitJoin(parts: seq<string>, sep: char)
    requires |parts| >= 1
    requires forall i :: 0 <= i < |parts| ==> sep !in parts[i]
    ensures Split(Join(parts, sep), sep) == parts
  {
    if |parts| == 1 {
      SplitWithoutSeparator(parts[0], sep);
    } else {
      SplitJoin(parts[1..], sep);
      SplitAfterFirst(parts[0], sep, Join(parts[1..], sep));
      assert [parts[0]] + parts[1..] == parts;
    }
  }

  // ---------------------------------------------------------------------------
  // Reading

  /** The library's `_parse_octet`: one to three decimal digits, no leading zero, at most 255. */
  function ParseOctet(s: string): (r: Option<nat>)
    ensures r.Some? ==> r.value <= 255
  {
    if s == [] then None
    else if !AllDec(s) then None
    else if |s| > 3 then None
    else if s != "0" && s[0] == '0' then None
    else if DecValue(s) > 255 then None
    else Some(DecValue(s))
  }

  /** Reads a dotted-decimal IPv4 address as its 32-bit value. */
  function ParseIp4(s: string): (r: Option<nat>)
    ensures r.Some? ==> r.value < 0x1_0000_0000
  {
    if s == [] then None
    else
      var octets := Split(s, '.');
      if |octets| != 4 then None
      else
        match (ParseOctet(octets[0]), ParseOctet(octets[1]), ParseOctet(octets[2]), ParseOctet(octets[3]))
        case (Some(b0), Some(b1), Some(b2), Some(b3)) => Some(((b0 * 256 + b1) * 256 + b2) * 256 + b3)
        case _ => None
  }

  /** An IPv4 tail in the last part becomes two hexadecimal groups. */
  function ExpandIp4Tail(parts: seq<string>): (r: Option<seq<string>>)
    requires |parts| >= 1
    ensures r.Some? ==> |r.value| >= |parts|
  {
    var last := parts[|parts| - 1];
    if '.' !in last then Some(parts)
    else
      match ParseIp4(last)
      case None => None
      case Some(v) => Some(parts[..|parts| - 1] + [ToHex(v / 0x1_0000), ToHex(v % 0x1_0000)])
  }

  /** Where the "::" is: no empty inner part, one at `index`, or more than one. */
  datatype Skip = NoSkip | SkipAt(index: nat) | TooMany

  /** The scan for an empty part among parts[1..|parts| - 1], from position `i` on. */
  function ScanSkip(parts: seq<string>, i: nat, found: Skip): (r: Skip)
    ensures r.SkipAt? ==>
              r == found || (i <= r.index && r.index + 1 < |parts| && |parts[r.index]| == 0)
    decreases |parts| - i
  {
    if i + 1 >= |parts| then found
    else if |parts[i]| != 0 then ScanSkip(parts, i + 1, found)
    else if found.NoSkip? then ScanSkip(parts, i + 1, SkipAt(i))
    else TooMany
  }

  /** Reads every group of `parts`, failing if any one fails. */
  function ParseHextets(parts: seq<string>): (r: Option<seq<Hextet>>)
    ensures r.Some? <==> forall i :: 0 <= i < |parts| ==> IsGroupText(parts[i])
    ensures r.Some? ==> |r.value| == |parts|
    ensures r.Some? ==> forall i :: 0 <= i < |parts| ==> r.value[i] == HexValue(parts[i])
  {
    if parts == [] then Some([])
    else
      match (ParseHextet(parts[0]), ParseHextets(parts[1..]))
      case (Some(h), Some(rest)) => Some([h] + rest)
      case _ => None
  }

  function Zeros(n: nat): (z: seq<Hextet>)
    ensures |z| == n && forall i :: 0 <= i < n ==> z[i] == 0
  {
    seq(n, _ => 0)
  }

  /** The groups before the "::", then `skipped` zero groups, then the groups after it. */
  function Assemble(hi: seq<string>, skipped: nat, lo: seq<string>): (r: Option<Address>)
    requires |hi| + skipped + |lo| == GROUPS
  {
    match (ParseHextets(hi), ParseHextets(lo))
    case (Some(h), Some(l)) => Some(h + Zeros(skipped) + l)
    case _ => None
  }

  /**
   * How the parts map onto the eight groups, once any IPv4 tail is converted:
   * how many parts give the leading groups, how many zero groups the "::"
   * stands for, and how many parts give the trailing groups. `None` where the
   * library raises: too many parts, more than one "::", a single ':' at
   * either end, a "::" that stands for no group, or too few groups without one.
   */
  function Layout(parts: seq<string>): (r: Option<(nat, nat, nat)>)
    requires |parts| >= 3
    ensures r.Some? ==> r.value.0 + r.value.1 + r.value.2 == GROUPS && r.value.0 + r.value.2 <= |parts|
  {
    if |parts| > GROUPS + 1 then None
    else
      match ScanSkip(parts, 1, NoSkip)
      case TooMany => None
      case SkipAt(k) =>
        var leadEmpty := |parts[0]| == 0;
        var trailEmpty := |parts[|parts| - 1]| == 0;
        var hi := if leadEmpty then k - 1 else k;
        var lo := if trailEmpty then |parts| - k - 2 else |parts| - k - 1;
        if leadEmpty && hi != 0 then None
        else if trailEmpty && lo != 0 then None
        else if GROUPS - (hi + lo) < 1 then None
        else Some((hi, GROUPS - (hi + lo), lo))
      case NoSkip =>
        if |parts| != GROUPS then None
        else if |parts[0]| == 0 || |parts[|parts| - 1]| == 0 then None
        else Some((GROUPS, 0, 0))
  }

  /** Reads the parts once any IPv4 tail is converted. */
  function ParseGroups(parts: seq<string>): (r: Option<Address>)
    requires |parts| >= 3
  {
    match Layout(parts)
    case None => None
    case Some((hi, skipped, lo)) => Assemble(parts[..hi], skipped, parts[|parts| - lo..])
  }

  /** Reads the text of an address; `None` where the library raises an address error. */
  function ParseAddress(text: string): (r: Option<Address>)
    ensures text == [] || |Split(text, ':')| < 3 ==> r == None
    ensures |Split(text, ':')| > GROUPS + 1 ==> r == None
  {
    if text == [] then None
    else
      var parts := Split(text, ':');
      if |parts| < 3 then None
      else
        match ExpandIp4Tail(parts)
        case None => None
        case Some(expanded) => ParseGroups(expanded)
  }

  // ---------------------------------------------------------------------------
  // Writing

  /** The canonical group texts of a list of groups, without compression. */
  function HexTexts(hs: seq<Hextet>): (ts: seq<string>)
    ensures |ts| == |hs|
    ensures forall i :: 0 <= i < |hs| ==> ts[i] == ToHex(hs[i])
  {
    seq(|hs|, i requires 0 <= i < |hs| => ToHex(hs[i]))
  }

  /**
   * The library's scan for the run of "0" groups to compress: the current run
   * starts at `curStart` (-1 when there is none) and has `curLen` groups; the
   * best so far starts at `bestStart` with `bestLen` groups. A later run
   * replaces the best only when strictly longer, so the first longest wins
   * (`CompressChoosesFirstLongest`).
   */
  function ZeroRun(hs: seq<string>, i: nat, curStart: int, curLen: nat, bestStart: int, bestLen: nat): (run: (int, nat))
    requires i <= |hs|
    requires curLen == 0 <==> curStart == -1
    requires curLen > 0 ==> 0 <= curStart && curStart + curLen == i
    requires forall k :: 0 <= curStart <= k < i ==> hs[k] == "0"
    requires bestLen > 0 ==> 0 <= bestStart && bestStart + bestLen <= i
    requires bestLen > 0 ==> forall k :: bestStart <= k < bestStart + bestLen ==> hs[k] == "0"
    ensures run.1 > 0 ==> 0 <= run.0 && run.0 + run.1 <= |hs|
    ensures run.1 > 0 ==> forall k :: run.0 <= k < run.0 + run.1 ==> hs[k] == "0"
    ensures run.1 >= bestLen
    decreases |hs| - i
  {
    if i == |hs| then (bestStart, bestLen)
    else if hs[i] == "0" then
      var start := if curStart == -1 then i else curStart;
      var len := curLen + 1;
      if len > bestLen then ZeroRun(hs, i + 1, start, len, start, len)
      else ZeroRun(hs, i + 1, start, len, bestStart, bestLen)
    else ZeroRun(hs, i + 1, -1, 0, bestStart, bestLen)
  }

  /** hs[start..start + len] is a run of "0" groups. */
  predicate ZerosAt(hs: seq<string>, start: int, len: int) {
    0 <= start && 0 <= len && start + len <= |hs| && forall k :: start <= k < start + len ==> hs[k] == "0"
  }

  /** `run` is the first of the longest runs of "0" groups: no run is longer, and none as long starts earlier. */
  ghost predicate FirstLongest(hs: seq<string>, run: (int, nat)) {
    && (forall s, l :: ZerosAt(hs, s, l) ==> l <= run.1)
    && (forall s, l :: ZerosAt(hs, s, l) && l == run.1 > 0 ==> run.0 <= s)
  }

  /**
   * What the scan knows when it reaches position `i`: the arguments meet
   * `ZeroRun`'s requirements, the current run cannot be extended to the
   * left and is no longer than the best, and the best is the first of the
   * longest runs that end at or before `i`.
   */
  ghost predicate Scanned(hs: seq<string>, i: nat, curStart: int, curLen: nat, bestStart: int, bestLen: nat) {
    && i <= |hs|
    && (curLen == 0 <==> curStart == -1)
    && (curLen > 0 ==> 0 <= curStart && curStart + curLen == i)
    && (forall k :: 0 <= curStart <= k < i ==> hs[k] == "0")
    && (bestLen > 0 ==> 0 <= bestStart && bestStart + bestLen <= i)
    && (bestLen > 0 ==> forall k :: bestStart <= k < bestStart + bestLen ==> hs[k] == "0")
    && (curLen == 0 ==> i == 0 || hs[i - 1] != "0")
    && (curLen > 0 ==> curStart == 0 || hs[curStart - 1] != "0")
    && curLen <= bestLen
    && (forall s, l :: ZerosAt(hs, s, l) && s + l <= i ==> l <= bestLen)
    && (forall s, l :: ZerosAt(hs, s, l) && s + l <= i && l == bestLen > 0 ==> bestStart <= s)
  }

  /** From a scanned state, `ZeroRun` returns the first of the longest runs. */
  lemma {:induction false} ZeroRunFirstLongest(hs: seq<string>, i: nat, curStart: int, curLen: nat, bestStart: int, bestLen: nat)
    requires Scanned(hs, i, curStart, curLen, bestStart, bestLen)
    ensures FirstLongest(hs, ZeroRun(hs, i, curStart, curLen, bestStart, bestLen))
    decreases |hs| - i, 1
  {
    if i == |hs| {
      ScannedAtEnd(hs, curStart, curLen, bestStart, bestLen);
    } else if hs[i] != "0" {
      BreakFirstLongest(hs, i, curStart, curLen, bestStart, bestLen);
    } else if curLen + 1 > bestLen {
      NewBestFirstLongest(hs, i, curStart, curLen, bestStart, bestLen);
    } else {
      SameBestFirstLongest(hs, i, curStart, curLen, bestStart, bestLen);
    }
  }

  /** The scan past a group other than "0". */
  lemma {:induction false} BreakFirstLongest(hs: seq<string>, i: nat, curStart: int, curLen: nat, bestStart: int, bestLen: nat)
    requires Scanned(hs, i, curStart, curLen, bestStart, bestLen)
    requires i < |hs| && hs[i] != "0"
    ensures FirstLongest(hs, ZeroRun(hs, i, curStart, curLen, bestStart, bestLen))
    decreases |hs| - i, 0
  {
    ScannedBreaks(hs, i, curStart, curLen, bestStart, bestLen);
    ZeroRunFirstLongest(hs, i + 1, -1, 0, bestStart, bestLen);
  }

  /** The scan past a "0" group that makes the current run the best. */
  lemma {:induction false} NewBestFirstLongest(hs: seq<string>, i: nat, curStart: int, curLen: nat, bestStart: int, bestLen: nat)
    requires Scanned(hs, i, curStart, curLen, bestStart, bestLen)
    requires i < |hs| && hs[i] == "0" && curLen + 1 > bestLen
    ensures FirstLongest(hs, ZeroRun(hs, i, curStart, curLen, bestStart, bestLen))
    decreases |hs| - i, 0
  {
    ScannedNewBest(hs, i, curStart, curLen, bestStart, bestLen);
    if curStart == -1 {
      ZeroRunFirstLongest(hs, i + 1, i, curLen + 1, i, curLen + 1);
    } else {
      ZeroRunFirstLongest(hs, i + 1, curStart, curLen + 1, curStart, curLen + 1);
    }
  }

  /** The scan past a "0" group that leaves the best as it is. */
  lemma {:induction false} SameBestFirstLongest(hs: seq<string>, i: nat, curStart: int, curLen: nat, bestStart: int, bestLen: nat)
    requires Scanned(hs, i, curStart, curLen, bestStart, bestLen)
    requires i < |hs| && hs[i] == "0" && curLen + 1 <= bestLen
    ensures FirstLongest(hs, ZeroRun(hs, i, curStart, curLen, bestStart, bestLen))
    decreases |hs| - i, 0
  {
    ScannedSameBest(hs, i, curStart, curLen, bestStart, bestLen);
    if curStart == -1 {
      ZeroRunFirstLongest(hs, i + 1, i, curLen + 1, bestStart, bestLen);
    } else {
      ZeroRunFirstLongest(hs, i + 1, curStart, curLen + 1, bestStart, bestLen);
    }
  }

  /** At the end of the list every run has been seen, so the best is the first of the longest. */
  lemma ScannedAtEnd(hs: seq<string>, curStart: int, curLen: nat, bestStart: int, bestLen: nat)
    requires Scanned(hs, |hs|, curStart, curLen, bestStart, bestLen)
    ensures FirstLongest(hs, (bestStart, bestLen))
  {
  }

  /** A run of "0" groups ending at position i starts no earlier than the run that cannot be extended to the left. */
  lemma RunStartsAtMost(hs: seq<string>, i: nat, start: nat)
    requires start <= i < |hs|
    requires start == 0 || hs[start - 1] != "0"
    ensures forall s, l :: ZerosAt(hs, s, l) && s + l == i + 1 && l > 0 ==> start <= s
  {
    forall s, l | ZerosAt(hs, s, l) && s + l == i + 1 && l > 0
      ensures start <= s
    {
      if start > 0 {
        assert !(s <= start - 1 < s + l);
      }
    }
  }

  /** A "0" group extends the current run past the best: the run becomes the best. */
  lemma ScannedNewBest(hs: seq<string>, i: nat, curStart: int, curLen: nat, bestStart: int, bestLen: nat)
    requires Scanned(hs, i, curStart, curLen, bestStart, bestLen)
    requires i < |hs| && hs[i] == "0" && curLen + 1 > bestLen
    ensures var start := if curStart == -1 then i else curStart;
            Scanned(hs, i + 1, start, curLen + 1, start, curLen + 1)
  {
    var start := if curStart == -1 then i else curStart;
    var len := curLen + 1;
    RunStartsAtMost(hs, i, start);
    forall s, l | ZerosAt(hs, s, l) && s + l <= i + 1
      ensures l <= len && (l == len > 0 ==> start <= s)
    {
      if s + l <= i {
        assert l <= bestLen;
      }
    }
  }

  /** A "0" group extends the current run, which stays no longer than the best: the best stays. */
  lemma ScannedSameBest(hs: seq<string>, i: nat, curStart: int, curLen: nat, bestStart: int, bestLen: nat)
    requires Scanned(hs, i, curStart, curLen, bestStart, bestLen)
    requires i < |hs| && hs[i] == "0" && curLen + 1 <= bestLen
    ensures var start := if curStart == -1 then i else curStart;
            Scanned(hs, i + 1, start, curLen + 1, bestStart, bestLen)
  {
    var start := if curStart == -1 then i else curStart;
    RunStartsAtMost(hs, i, start);
    forall s, l | ZerosAt(hs, s, l) && s + l <= i + 1
      ensures l <= bestLen && (l == bestLen > 0 ==> bestStart <= s)
    {
      if s + l == i + 1 && l > 0 {
        assert start <= s;
      }
    }
  }

  /** Any other group ends the current run; the best stays. */
  lemma ScannedBreaks(hs: seq<string>, i: nat, curStart: int, curLen: nat, bestStart: int, bestLen: nat)
    requires Scanned(hs, i, curStart, curLen, bestStart, bestLen)
    requires i < |hs| && hs[i] != "0"
    ensures Scanned(hs, i + 1, -1, 0, bestStart, bestLen)
  {
    forall s, l | ZerosAt(hs, s, l) && s + l <= i + 1
      ensures l <= bestLen && (l == bestLen > 0 ==> bestStart <= s)
    {
      assert !(s <= i < s + l);
    }
  }

  /** The run `Compress` collapses is the first of the longest runs of "0" groups. */
  lemma CompressChoosesFirstLongest(hs: seq<string>)
    ensures FirstLongest(hs, ZeroRun(hs, 0, -1, 0, -1, 0))
  {
    ZeroRunFirstLongest(hs, 0, -1, 0, -1, 0);
  }

  /** The library's `_compress_hextets`: the chosen run of two or more "0" groups becomes one empty part. */
  function Compress(hs: seq<string>): seq<string>
  {
    var (start, len) := ZeroRun(hs, 0, -1, 0, -1, 0);
    if len > 1 then Collapse(hs, start, len) else hs
  }

  /**
   * Replaces hs[start..start + len] by one empty part, adding an empty part
   * at the end when the run ends the list and at the front when it starts it,
   * so that joining gives a leading or trailing "::".
   */
  function Collapse(hs: seq<string>, start: nat, len: nat): seq<string>
    requires start + len <= |hs|
  {
    var end := start + len;
    var extended := if end == |hs| then hs + [[]] else hs;
    var replaced := extended[..start] + [[]] + extended[end..];
    if start == 0 then [[]] + replaced else replaced
  }

  /** The canonical text of an address (the library's `str`): lower-case digits and colons only. */
  function FormatAddress(a: Address): (text: string)
    ensures forall k :: 0 <= k < |text| ==> text[k] == ':' || IsLowerHexDigit(text[k])
  {
    CompressedLowerHex(a);
    JoinedLowerHex(Compress(HexTexts(a)));
    Join(Compress(HexTexts(a)), ':')
  }

  predicate LowerHexText(s: string) {
    forall k :: 0 <= k < |s| ==> IsLowerHexDigit(s[k])
  }

  predicate AllLowerHexText(parts: seq<string>) {
    forall i :: 0 <= i < |parts| ==> LowerHexText(parts[i])
  }

  /** Joining lower-case digit strings with colons gives only lower-case digits and colons. */
  lemma {:induction false} JoinedLowerHex(parts: seq<string>)
    requires AllLowerHexText(parts)
    ensures forall k :: 0 <= k < |Join(parts, ':')| ==> Join(parts, ':')[k] == ':' || IsLowerHexDigit(Join(parts, ':')[k])
  {
    if |parts| > 1 {
      JoinedLowerHex(parts[1..]);
      var rest := Join(parts[1..], ':');
      var text := parts[0] + [':'] + rest;
      assert Join(parts, ':') == text;
      forall k | 0 <= k < |text|
        ensures text[k] == ':' || IsLowerHexDigit(text[k])
      {
        if k < |parts[0]| {
          assert text[k] == parts[0][k];
        } else if k > |parts[0]| {
          assert text[k] == rest[k - |parts[0]| - 1];
        }
      }
    } else if |parts| == 1 {
      assert LowerHexText(parts[0]);
    }
  }

  /** The parts of the canonical form are written groups or empty. */
  lemma CompressedLowerHex(a: Address)
    ensures AllLowerHexText(Compress(HexTexts(a)))
  {
    var hs := HexTexts(a);
    assert AllLowerHexText(hs) by {
      forall i | 0 <= i < |hs|
        ensures LowerHexText(hs[i])
      {
        assert hs[i] == ToHex(a[i]);
      }
    }
    var start, len := CompressShape(hs);
    if len > 1 {
      CollapsedLowerHex(hs[..start], hs[start + len..]);
    }
  }

  /** Collapsing a run keeps every part a lower-case digit string, the new parts being empty. */
  lemma CollapsedLowerHex(x: seq<string>, y: seq<string>)
    requires AllLowerHexText(x) && AllLowerHexText(y)
    ensures AllLowerHexText(Lead(x) + x + [[]] + y + Trail(y))
  {
    var t := Lead(x) + x + [[]] + y + Trail(y);
    forall i | 0 <= i < |t|
      ensures LowerHexText(t[i])
    {
      var lead := |Lead(x)|;
      if i < lead || i == lead + |x| || i >= lead + |x| + 1 + |y| {
        assert t[i] == [];
      } else if i < lead + |x| {
        assert t[i] == x[i - lead];
      } else {
        assert t[i] == y[i - lead - |x| - 1];
      }
    }
  }

  // ---------------------------------------------------------------------------
  // Reading the canonical text gives the address back

  predicate AllGroupText(parts: seq<string>) {
    forall i :: 0 <= i < |parts| ==> IsGroupText(parts[i])
  }

  function Lead(x: seq<string>): seq<string> {
    if x == [] then [[]] else []
  }

  function Trail(y: seq<string>): seq<string> {
    if y == [] then [[]] else []
  }

  lemma {:induction false} ScanSkipFindsNone(parts: seq<string>, i: nat, found: Skip)
    requires forall j :: i <= j < |parts| - 1 ==> |parts[j]| != 0
    ensures ScanSkip(parts, i, found) == found
    decreases |parts| - i
  {
    if i + 1 < |parts| {
      ScanSkipFindsNone(parts, i + 1, found);
    }
  }

  lemma {:induction false} ScanSkipFindsOne(parts: seq<string>, i: nat, m: nat)
    requires i <= m < |parts| - 1 && |parts[m]| == 0
    requires forall j :: i <= j < |parts| - 1 && j != m ==> |parts[j]| != 0
    ensures ScanSkip(parts, i, NoSkip) == SkipAt(m)
    decreases |parts| - i
  {
    if i == m {
      ScanSkipFindsNone(parts, i + 1, SkipAt(m));
    } else {
      ScanSkipFindsOne(parts, i + 1, m);
    }
  }

  /** The shape of a compressed token list: one empty inner part, at `m`, and empty ends only where a side is empty. */
  lemma CompressedTokens(x: seq<string>, y: seq<string>, gap: nat) returns (m: nat)
    requires AllGroupText(x) && AllGroupText(y)
    requires |x| + gap + |y| == GROUPS && gap >= 1
    ensures var t := Lead(x) + x + [[]] + y + Trail(y);
            && 3 <= |t| <= GROUPS + 1
            && m == |Lead(x)| + |x| && 1 <= m < |t| - 1
            && ScanSkip(t, 1, NoSkip) == SkipAt(m)
            && (|t[0]| == 0 <==> |x| == 0)
            && (|t[|t| - 1]| == 0 <==> |y| == 0)
  {
    var t := Lead(x) + x + [[]] + y + Trail(y);
    m := if x == [] then 1 else |x|;
    assert |t| <= GROUPS + 1 by {
      if x == [] && y == [] {
      } else if x == [] {
      } else if y == [] {
      }
    }
    assert t[m] == [];
    forall j | 1 <= j < |t| - 1 && j != m
      ensures |t[j]| != 0
    {
      if x == [] {
        assert t[j] == y[j - 2];
      } else if j < m {
        assert t[j] == x[j];
      } else {
        assert t[j] == y[j - m - 1];
      }
    }
    ScanSkipFindsOne(t, 1, m);
    assert |t[0]| == 0 <==> |x| == 0 by {
      if x != [] { assert t[0] == x[0]; }
    }
    assert |t[|t| - 1]| == 0 <==> |y| == 0 by {
      if y != [] { assert t[|t| - 1] == y[|y| - 1]; }
    }
  }

  /**
   * Parts with one empty inner part at `m` put `hi` groups before the "::"
   * and `lo` after it; an empty first or last part belongs to the "::" and
   * carries no group.
   */
  lemma LayoutWithSkip(t: seq<string>, m: nat, hi: nat, lo: nat)
    requires 3 <= |t| <= GROUPS + 1 && 1 <= m < |t| - 1
    requires ScanSkip(t, 1, NoSkip) == SkipAt(m)
    requires hi == (if |t[0]| == 0 then m - 1 else m)
    requires lo == (if |t[|t| - 1]| == 0 then |t| - m - 2 else |t| - m - 1)
    requires |t[0]| == 0 ==> hi == 0
    requires |t[|t| - 1]| == 0 ==> lo == 0
    requires hi + lo < GROUPS
    ensures Layout(t) == Some((hi, GROUPS - hi - lo, lo))
  {
  }

  /** Parts laid out as x, a gap and y are read as the groups of x, the zero groups and the groups of y. */
  lemma ReadLaidOut(t: seq<string>, x: seq<string>, gap: nat, y: seq<string>)
    requires |t| >= 3 && |x| + gap + |y| == GROUPS
    requires Layout(t) == Some((|x|, gap, |y|))
    requires t[..|x|] == x && t[|t| - |y|..] == y
    ensures ParseGroups(t) == Assemble(x, gap, y)
  {
  }

  /** A compressed token list is read as the groups on each side of the gap. */
  lemma CompressedGroups(x: seq<string>, y: seq<string>, gap: nat)
    requires AllGroupText(x) && AllGroupText(y)
    requires |x| + gap + |y| == GROUPS && gap >= 1
    ensures |Lead(x) + x + [[]] + y + Trail(y)| >= 3
    ensures ParseGroups(Lead(x) + x + [[]] + y + Trail(y)) == Assemble(x, gap, y)
  {
    var t := Lead(x) + x + [[]] + y + Trail(y);
    var m := CompressedTokens(x, y, gap);
    LayoutWithSkip(t, m, |x|, |y|);
    assert t[..|x|] == x;
    assert t[|t| - |y|..] == y;
    ReadLaidOut(t, x, gap, y);
  }

  /** An uncompressed list of eight groups is read group by group. */
  lemma PlainGroups(hs: seq<string>)
    requires |hs| == GROUPS && AllGroupText(hs)
    ensures ParseGroups(hs) == Assemble(hs, 0, [])
  {
    ScanSkipFindsNone(hs, 1, NoSkip);
    assert |hs[0]| != 0 && |hs[GROUPS - 1]| != 0 by {
      assert IsGroupText(hs[0]) && IsGroupText(hs[GROUPS - 1]);
    }
    assert Layout(hs) == Some((GROUPS, 0, 0));
    assert hs[..GROUPS] == hs && hs[GROUPS..] == [];
    ReadLaidOut(hs, hs, 0, []);
  }

  /** The collapsed form as the groups before the run, the gap and the groups after it. */
  lemma CollapseShape(hs: seq<string>, start: nat, len: nat)
    requires start + len <= |hs|
    ensures Collapse(hs, start, len) ==
            Lead(hs[..start]) + hs[..start] + [[]] + hs[start + len..] + Trail(hs[start + len..])
  {
    var end := start + len;
    var extended := if end == |hs| then hs + [[]] else hs;
    assert extended[..start] == hs[..start];
    assert extended[end..] == hs[end..] + Trail(hs[end..]);
    if start == 0 {
      assert Lead(hs[..start]) == [[]];
    } else {
      assert Lead(hs[..start]) == [];
    }
  }

  lemma CompressShape(hs: seq<string>)
    returns (start: nat, len: nat)
    requires |hs| == GROUPS
    ensures start + len <= GROUPS
    ensures forall k :: start <= k < start + len ==> hs[k] == "0"
    ensures len > 1 ==>
              Compress(hs) == Lead(hs[..start]) + hs[..start] + [[]] + hs[start + len..] + Trail(hs[start + len..])
    ensures len <= 1 ==> Compress(hs) == hs
  {
    var run := ZeroRun(hs, 0, -1, 0, -1, 0);
    if run.1 > 1 {
      start, len := run.0, run.1;
      CollapseShape(hs, start, len);
    } else {
      start, len := 0, 0;
    }
  }

  predicate NoSeparators(parts: seq<string>) {
    forall i :: 0 <= i < |parts| ==> ':' !in parts[i] && '.' !in parts[i]
  }

  lemma ShapeHasNoSeparators(x: seq<string>, y: seq<string>)
    requires NoSeparators(x) && NoSeparators(y)
    ensures NoSeparators(Lead(x) + x + [[]] + y + Trail(y))
  {
    var t := Lead(x) + x + [[]] + y + Trail(y);
    forall i | 0 <= i < |t|
      ensures ':' !in t[i] && '.' !in t[i]
    {
      var lead := |Lead(x)|;
      if i < lead || i == lead + |x| || i >= lead + |x| + 1 + |y| {
        assert t[i] == [];
      } else if i < lead + |x| {
        assert t[i] == x[i - lead];
      } else {
        assert t[i] == y[i - lead - |x| - 1];
      }
    }
  }

  /** Text joined from parts that hold no ':' is read part by part. */
  lemma ReadJoinedParts(parts: seq<string>)
    requires |parts| >= 3
    requires forall i :: 0 <= i < |parts| ==> ':' !in parts[i]
    requires '.' !in parts[|parts| - 1]
    ensures ParseAddress(Join(parts, ':')) == ParseGroups(parts)
  {
    var text := Join(parts, ':');
    SplitJoin(parts, ':');
    assert Split(text, ':') == parts;
    assert text != [] by {
      assert |Split([], ':')| == 1;
    }
    assert ExpandIp4Tail(parts) == Some(parts);
  }

  /** Group texts that hold no separator and are read as the groups `hs`. */
  predicate ReadsAs(ts: seq<string>, hs: seq<Hextet>) {
    AllGroupText(ts) && NoSeparators(ts) && ParseHextets(ts) == Some(hs)
  }

  lemma ReadHexTexts(hs: seq<Hextet>)
    ensures ReadsAs(HexTexts(hs), hs)
  {
    forall i | 0 <= i < |hs|
      ensures IsGroupText(HexTexts(hs)[i]) && ':' !in HexTexts(hs)[i] && '.' !in HexTexts(hs)[i]
    {
      ParseToHex(hs[i]);
    }
    var r := ParseHextets(HexTexts(hs));
    assert r.Some?;
    assert r.value == hs;
  }

  /** Eight groups written out in full read as those groups. */
  lemma ReadFullText(ts: seq<string>, h: Address)
    requires ReadsAs(ts, h)
    ensures ParseAddress(Join(ts, ':')) == Some(h)
  {
    PlainGroups(ts);
    ReadJoinedParts(ts);
    assert ParseHextets([]) == Some([]);
    assert h + Zeros(0) + [] == h;
  }

  /** A character that no part holds, other than the separator, is not in the joined text. */
  lemma {:induction false} JoinAvoids(parts: seq<string>, sep: char, c: char)
    requires c != sep
    requires forall i :: 0 <= i < |parts| ==> c !in parts[i]
    ensures c !in Join(parts, sep)
  {
    if |parts| > 1 {
      JoinAvoids(parts[1..], sep, c);
      assert Join(parts, sep) == parts[0] + [sep] + Join(parts[1..], sep);
    }
  }

  /** Four octets joined by dots read as the 32-bit value they spell, most significant first. */
  lemma ReadIp4(o: seq<string>, b: seq<nat>)
    requires |o| == 4 && |b| == 4
    requires forall i :: 0 <= i < 4 ==> ParseOctet(o[i]) == Some(b[i])
    ensures ParseIp4(Join(o, '.')) == Some(((b[0] * 256 + b[1]) * 256 + b[2]) * 256 + b[3])
    ensures ':' !in Join(o, '.') && '.' in Join(o, '.')
  {
    forall i | 0 <= i < 4
      ensures ':' !in o[i] && '.' !in o[i]
    {
      OctetPlain(o[i], b[i]);
    }
    SplitJoin(o, '.');
    JoinAvoids(o, '.', ':');
    SeparatorJoined(o, '.');
    ReadQuad(Join(o, '.'), o, b);
  }

  /** An octet is made of decimal digits only, so it holds neither ':' nor '.'. */
  lemma OctetPlain(s: string, x: nat)
    requires ParseOctet(s) == Some(x)
    ensures ':' !in s && '.' !in s
  {
    assert AllDec(s);
    forall k | 0 <= k < |s|
      ensures s[k] != ':' && s[k] != '.'
    {
      assert IsDecDigit(s[k]);
    }
  }

  /** Two or more parts joined show the separator. */
  lemma SeparatorJoined(parts: seq<string>, sep: char)
    requires |parts| >= 2
    ensures sep in Join(parts, sep)
  {
    assert Join(parts, sep) == parts[0] + [sep] + Join(parts[1..], sep);
    assert Join(parts, sep)[|parts[0]|] == sep;
  }

  /** Text that splits on '.' into four octets reads as their 32-bit value. */
  lemma ReadQuad(q: string, o: seq<string>, b: seq<nat>)
    requires q != [] && Split(q, '.') == o && |o| == 4 && |b| == 4
    requires forall i :: 0 <= i < 4 ==> ParseOctet(o[i]) == Some(b[i])
    ensures ParseIp4(q) == Some(((b[0] * 256 + b[1]) * 256 + b[2]) * 256 + b[3])
  {
  }

  /** A dotted-decimal IPv4 value is its high octet pair, then its low octet pair, as two 16-bit groups. */
  lemma Ip4Halves(b: seq<nat>)
    requires |b| == 4 && forall i :: 0 <= i < 4 ==> b[i] <= 255
    ensures b[0] * 256 + b[1] < 0x1_0000 && b[2] * 256 + b[3] < 0x1_0000
    ensures ((b[0] * 256 + b[1]) * 256 + b[2]) * 256 + b[3] == (b[0] * 256 + b[1]) * 0x1_0000 + (b[2] * 256 + b[3])
  {
  }

  /** A 32-bit value built from two 16-bit groups gives them back by division and remainder. */
  lemma SplitValue(hi: nat, lo: nat)
    requires hi < 0x1_0000 && lo < 0x1_0000
    ensures (hi * 0x1_0000 + lo) / 0x1_0000 == hi && (hi * 0x1_0000 + lo) % 0x1_0000 == lo
  {
  }

  /**
   * Six groups followed by a dotted-decimal IPv4 tail (section 2.2 of RFC
   * 4291, form 3) read as the six groups, then the two 16-bit halves of the
   * IPv4 value.
   */
  lemma ReadIp4TailText(ts: seq<string>, h: seq<Hextet>, o: seq<string>, b: seq<nat>)
    requires |ts| == GROUPS - 2 && ReadsAs(ts, h)
    requires |o| == 4 && |b| == 4
    requires forall i :: 0 <= i < 4 ==> ParseOctet(o[i]) == Some(b[i])
    ensures var r := ParseAddress(Join(ts + [Join(o, '.')], ':'));
            r.Some? && r.value[..GROUPS - 2] == h
            && r.value[GROUPS - 2] == b[0] * 256 + b[1] && r.value[GROUPS - 1] == b[2] * 256 + b[3]
  {
    ReadIp4(o, b);
    Ip4Halves(b);
    ReadQuadTail(ts, h, Join(o, '.'), b[0] * 256 + b[1], b[2] * 256 + b[3]);
  }

  /** Six read groups, then a last part that expands to two more groups, read as all eight. */
  lemma ReadGroupsThenHalves(ts: seq<string>, h: seq<Hextet>, q: string, hi: Hextet, lo: Hextet)
    requires |ts| == GROUPS - 2 && ReadsAs(ts, h) && ':' !in q
    requires ExpandIp4Tail(ts + [q]) == Some(ts + [ToHex(hi), ToHex(lo)])
    ensures ParseAddress(Join(ts + [q], ':')) == Some(h + [hi, lo])
  {
    var full := ts + [ToHex(hi), ToHex(lo)];
    NoColonAppended(ts, q);
    ReadSplitParts(ts + [q]);
    FullGroupsRead(ts, h, hi, lo);
    PlainGroups(full);
    assert ParseHextets([]) == Some([]);
    assert (h + [hi, lo]) + Zeros(0) + [] == h + [hi, lo];
  }

  /** Text joined from parts that hold no ':' is read as the parts once any IPv4 tail is converted. */
  lemma ReadSplitParts(parts: seq<string>)
    requires |parts| >= 3
    requires forall i :: 0 <= i < |parts| ==> ':' !in parts[i]
    ensures ExpandIp4Tail(parts).Some? ==> ParseAddress(Join(parts, ':')) == ParseGroups(ExpandIp4Tail(parts).value)
  {
    SplitJoin(parts, ':');
    assert Join(parts, ':') != [] by {
      assert |Split([], ':')| == 1;
    }
  }

  /** Six read groups, then a dotted quad read as two 16-bit groups, read as all eight groups. */
  lemma ReadQuadTail(ts: seq<string>, h: seq<Hextet>, q: string, hi: Hextet, lo: Hextet)
    requires |ts| == GROUPS - 2 && ReadsAs(ts, h)
    requires ':' !in q && '.' in q && ParseIp4(q).Some? && ParseIp4(q).value == hi * 0x1_0000 + lo
    ensures ParseAddress(Join(ts + [q], ':')) == Some(h + [hi, lo])
  {
    ExpandQuad(ts, q, hi, lo);
    ReadGroupsThenHalves(ts, h, q, hi, lo);
  }

  /** Appending a part without ':' to parts without ':' keeps every part free of ':'. */
  lemma NoColonAppended(ts: seq<string>, q: string)
    requires NoSeparators(ts) && ':' !in q
    ensures forall i :: 0 <= i < |ts| + 1 ==> ':' !in (ts + [q])[i]
  {
    forall i | 0 <= i < |ts| + 1
      ensures ':' !in (ts + [q])[i]
    {
      if i < |ts| {
        assert (ts + [q])[i] == ts[i];
      }
    }
  }

  /** A dotted quad read as two 16-bit groups, after some parts, becomes the groups in hexadecimal. */
  lemma ExpandQuad(ts: seq<string>, q: string, hi: nat, lo: nat)
    requires hi < 0x1_0000 && lo < 0x1_0000
    requires '.' in q && ParseIp4(q).Some? && ParseIp4(q).value == hi * 0x1_0000 + lo
    ensures ExpandIp4Tail(ts + [q]) == Some(ts + [ToHex(hi), ToHex(lo)])
  {
    var parts := ts + [q];
    SplitValue(hi, lo);
    assert parts[|parts| - 1] == q && parts[..|parts| - 1] == ts;
    ExpandTail(parts, hi * 0x1_0000 + lo);
  }

  /** A last part that reads as an IPv4 value becomes the value's two 16-bit halves in hexadecimal. */
  lemma ExpandTail(parts: seq<string>, v: nat)
    requires |parts| >= 1 && '.' in parts[|parts| - 1] && ParseIp4(parts[|parts| - 1]) == Some(v)
    ensures ExpandIp4Tail(parts) == Some(parts[..|parts| - 1] + [ToHex(v / 0x1_0000), ToHex(v % 0x1_0000)])
  {
  }

  /** Six read groups and two written groups read as the eight groups. */
  lemma FullGroupsRead(ts: seq<string>, h: seq<Hextet>, hi: Hextet, lo: Hextet)
    requires |ts| == GROUPS - 2 && ReadsAs(ts, h)
    ensures AllGroupText(ts + [ToHex(hi), ToHex(lo)])
    ensures ParseHextets(ts + [ToHex(hi), ToHex(lo)]) == Some(h + [hi, lo])
  {
    var full := ts + [ToHex(hi), ToHex(lo)];
    ParseToHex(hi);
    ParseToHex(lo);
    assert forall i :: 0 <= i < |ts| ==> full[i] == ts[i];
    assert full[|ts|] == ToHex(hi) && full[|ts| + 1] == ToHex(lo);
    var r := ParseHextets(full);
    assert r.Some?;
    assert r.value == h + [hi, lo];
  }

  /** The parts of "x::y" are read as the groups of x, enough zero groups to make eight, then the groups of y. */
  lemma ReadCompressedParts(tx: seq<string>, x: seq<Hextet>, ty: seq<string>, y: seq<Hextet>)
    requires ReadsAs(tx, x) && ReadsAs(ty, y) && |x| + |y| < GROUPS
    ensures |Lead(tx) + tx + [[]] + ty + Trail(ty)| >= 3
    ensures ParseGroups(Lead(tx) + tx + [[]] + ty + Trail(ty)) == Some(x + Zeros(GROUPS - |x| - |y|) + y)
  {
    var gap := GROUPS - |x| - |y|;
    assert |tx| == |x| && |ty| == |y|;
    CompressedGroups(tx, ty, gap);
    assert Assemble(tx, gap, ty) == Some(x + Zeros(gap) + y);
  }

  /** Text "x::y" reads as the groups of x, enough zero groups to make eight, then the groups of y. */
  lemma ReadCompressedText(tx: seq<string>, x: seq<Hextet>, ty: seq<string>, y: seq<Hextet>)
    requires ReadsAs(tx, x) && ReadsAs(ty, y) && |x| + |y| < GROUPS
    ensures ParseAddress(Join(Lead(tx) + tx + [[]] + ty + Trail(ty), ':')) == Some(x + Zeros(GROUPS - |x| - |y|) + y)
  {
    var t := Lead(tx) + tx + [[]] + ty + Trail(ty);
    ReadCompressedParts(tx, x, ty, y);
    ShapeHasNoSeparators(tx, ty);
    ReadJoinedParts(t);
  }

  /** A run whose group texts are all "0" is a run of zero groups. */
  lemma ZeroTextsAreZeros(a: Address, start: nat, len: nat)
    requires start + len <= GROUPS
    requires forall k :: start <= k < start + len ==> HexTexts(a)[k] == "0"
    ensures a[..start] + Zeros(len) + a[start + len..] == a
  {
    forall k | start <= k < start + len
      ensures a[k] == 0
    {
      assert HexTexts(a)[k] == ToHex(a[k]);
    }
    assert a[start..start + len] == Zeros(len);
    assert a == a[..start] + a[start..start + len] + a[start + len..];
  }

  /** The canonical text with a "::" reads back as the address. */
  lemma CompressedRoundTrip(a: Address, start: nat, len: nat)
    requires start + len <= GROUPS && len > 1
    requires forall k :: start <= k < start + len ==> HexTexts(a)[k] == "0"
    ensures var tx, ty := HexTexts(a)[..start], HexTexts(a)[start + len..];
            ParseAddress(Join(Lead(tx) + tx + [[]] + ty + Trail(ty), ':')) == Some(a)
  {
    var x, y := a[..start], a[start + len..];
    SidesRead(a, start, len);
    ZeroTextsAreZeros(a, start, len);
    ReadCompressedText(HexTexts(a)[..start], x, HexTexts(a)[start + len..], y);
  }

  /** The groups on either side of a run read back as the address's groups there. */
  lemma SidesRead(a: Address, start: nat, len: nat)
    requires start + len <= GROUPS
    ensures ReadsAs(HexTexts(a)[..start], a[..start])
    ensures ReadsAs(HexTexts(a)[start + len..], a[start + len..])
  {
    assert HexTexts(a)[..start] == HexTexts(a[..start]);
    ReadHexTexts(a[..start]);
    assert HexTexts(a)[start + len..] == HexTexts(a[start + len..]);
    ReadHexTexts(a[start + len..]);
  }

  /** Reading the canonical text of an address gives the address back. */
  lemma FormatParseRoundTrip(a: Address)
    ensures ParseAddress(FormatAddress(a)) == Some(a)
  {
    var hs := HexTexts(a);
    var start, len := CompressShape(hs);
    assert FormatAddress(a) == Join(Compress(hs), ':');
    if len > 1 {
      CompressedRoundTrip(a, start, len);
    } else {
      ReadHexTexts(a);
      ReadFullText(hs, a);
    }
  }
}

=== FILE: record_matcher.dfy ===
/**
 * The record matcher of the DNS-SD multi-client border-router test: how one
 * record captured from a `dig` response is compared with one expected
 * pattern, and how answer and additional records are prepared first (the
 * TTL is dropped and AAAA addresses are read into address values).
 */
module RecordMatcher {
  import opened Wrappers
  import Ipv6Text

  /** A field value: text printed by the query tool, or an address the matcher read from such text. */
  datatype Value = Text(s: string) | Addr(a: Ipv6Text.Address)

  /** A record field: a literal value or, in an expected pattern, a predicate over the captured value. */
  datatype Field = Lit(v: Value) | Pred(accepts: Value -> bool)

  /** A record as a tuple of fields: (name, class, type) for a question, (name, ttl, class, type, value, ...) for a captured answer. */
  type Record = seq<Field>

  /** What the test raises instead of answering. */
  datatype Fault =
    | InvariantViolation  // a captured record holds a predicate: the matcher's own assertion
    | FieldMissing        // a record too short for the position read: an index error
    | BadAddress          // a value the address parser rejects: an address error

  const AAAA: Value := Text("AAAA")

  predicate HasPredicate(r: Record) {
    exists i :: 0 <= i < |r| && r[i].Pred?
  }

  /** Equality of two fields: a predicate equals no literal, and no captured field is a predicate. */
  predicate SameField(a: Field, b: Field) {
    a.Lit? && b.Lit? && a.v == b.v
  }

  /** Whole-tuple equality, the fast path of the matcher. */
  predicate SameRecord(r: Record, p: Record) {
    |r| == |p| && forall i :: 0 <= i < |r| ==> SameField(r[i], p[i])
  }

  /** One position of the zip: the values are equal, or the pattern's predicate accepts the value. */
  predicate FieldAccepts(a: Value, b: Field) {
    match b
    case Lit(v) => a == v
    case Pred(accepts) => accepts(a)
  }

  /**
   * Matches a captured record against a pattern. A captured record holding a
   * predicate raises; otherwise the result is the field-wise rule over the
   * positions both tuples have (the whole-tuple equality tried first never
   * changes it), and positions past the shorter tuple are never read.
   */
  function MatchRecord(r: Record, p: Record): (res: Result<bool, Fault>)
    ensures res.Err? <==> HasPredicate(r)
    ensures res.Err? ==> res.error == InvariantViolation
    ensures res.Ok? ==>
              (res.value <==> forall i :: 0 <= i < |r| && i < |p| ==> r[i].Lit? && FieldAccepts(r[i].v, p[i]))
  {
    if HasPredicate(r) then Err(InvariantViolation)
    else if SameRecord(r, p) then Ok(true)
    else Ok(forall i :: 0 <= i < |r| && i < |p| ==> FieldAccepts(r[i].v, p[i]))
  }

  /** A record made of literals matches itself. */
  lemma MatchReflexive(r: Record)
    requires !HasPredicate(r)
    ensures MatchRecord(r, r) == Ok(true)
  {
    assert SameRecord(r, r);
  }

  /** Fields past the end of the shorter tuple are never examined, on either side. */
  lemma MatchIgnoresExtraFields(r: Record, p: Record, extra: Record)
    ensures |p| <= |r| && !HasPredicate(r) && !HasPredicate(extra) ==> MatchRecord(r + extra, p) == MatchRecord(r, p)
    ensures |r| <= |p| ==> MatchRecord(r, p + extra) == MatchRecord(r, p)
  {
    if |p| <= |r| && !HasPredicate(r) && !HasPredicate(extra) {
      assert !HasPredicate(r + extra) by {
        forall i | 0 <= i < |r + extra|
          ensures (r + extra)[i].Lit?
        {
          if i < |r| { assert (r + extra)[i] == r[i]; } else { assert (r + extra)[i] == extra[i - |r|]; }
        }
      }
      assert forall i :: 0 <= i < |p| ==> (r + extra)[i] == r[i];
    }
    if |r| <= |p| {
      assert forall i :: 0 <= i < |r| ==> (p + extra)[i] == p[i];
    }
  }

  /**
   * A predicate in position i of a pattern decides that position alone: the
   * record matches exactly when the predicate accepts its value there and the
   * rest of the pattern matches as before.
   */
  lemma PredicateTransparency(r: Record, p: Record, i: nat, accepts: Value -> bool)
    requires !HasPredicate(r) && i < |r| && i < |p|
    ensures MatchRecord(r, p[i := Pred(accepts)]) ==
            Ok(accepts(r[i].v) && forall j :: 0 <= j < |r| && j < |p| && j != i ==> FieldAccepts(r[j].v, p[j]))
  {
    var q := p[i := Pred(accepts)];
    assert FieldAccepts(r[i].v, q[i]) == accepts(r[i].v);
    assert forall j :: 0 <= j < |p| && j != i ==> q[j] == p[j];
  }

  // ---------------------------------------------------------------------------
  // Preparing answer and additional records

  /** Removes position 1 of a captured answer, its TTL; shorter records are kept as they are. */
  function DropTtl(c: Record): (d: Record)
    ensures |c| >= 2 ==> |d| == |c| - 1 && d[0] == c[0] && forall k :: 1 <= k < |d| ==> d[k] == c[k + 1]
    ensures |c| < 2 ==> d == c
  {
    if |c| < 2 then c else c[..1] + c[2..]
  }

  predicate IsAaaa(f: Field) {
    f.Lit? && f.v == AAAA
  }

  /**
   * The address a value stands for. Text is parsed; an address already made
   * is turned back into its canonical text and parsed again, as the address
   * constructor does with any argument that is not a number or bytes.
   */
  function ToAddress(v: Value): (r: Option<Ipv6Text.Address>)
    ensures v.Addr? ==> r == Some(v.a)
  {
    match v
    case Text(s) => Ipv6Text.ParseAddress(s)
    case Addr(a) => (Ipv6Text.FormatParseRoundTrip(a); Ipv6Text.ParseAddress(Ipv6Text.FormatAddress(a)))
  }

  /**
   * When position 2 holds 'AAAA', position 3 is replaced by the address it
   * spells. Reading position 2 or 3 of a shorter record is an index error;
   * a predicate or unreadable text at position 3 is an address error.
   */
  function NormalizeAaaa(r: Record): (res: Result<Record, Fault>)
    ensures |r| < 3 ==> res == Err(FieldMissing)
    ensures |r| >= 3 && !IsAaaa(r[2]) ==> res == Ok(r)
    ensures |r| == 3 && IsAaaa(r[2]) ==> res == Err(FieldMissing)
    ensures |r| >= 4 && IsAaaa(r[2]) ==> (res.Ok? <==> r[3].Lit? && ToAddress(r[3].v).Some?)
    ensures |r| >= 4 && IsAaaa(r[2]) && res.Err? ==> res.error == BadAddress
    ensures res.Ok? ==> |res.value| == |r| && |r| >= 3
    ensures |r| >= 4 && IsAaaa(r[2]) && res.Ok? ==> res.value[3] == Lit(Addr(ToAddress(r[3].v).value))
    ensures res.Ok? ==> forall i :: 0 <= i < |r| && i != 3 ==> res.value[i] == r[i]
  {
    if |r| < 3 then Err(FieldMissing)
    else if !IsAaaa(r[2]) then Ok(r)
    else if |r| < 4 then Err(FieldMissing)
    else
      match r[3]
      case Pred(_) => Err(BadAddress)
      case Lit(v) =>
        match ToAddress(v)
        case None => Err(BadAddress)
        case Some(a) => Ok(r[3 := Lit(Addr(a))])
  }

  /** Normalizing again changes nothing: an address value reads back as itself. */
  lemma NormalizeIdempotent(r: Record)
    requires NormalizeAaaa(r).Ok?
    ensures NormalizeAaaa(NormalizeAaaa(r).value) == NormalizeAaaa(r)
  {
    var n := NormalizeAaaa(r).value;
    if IsAaaa(r[2]) {
      assert IsAaaa(n[2]);
      assert n[3 := Lit(Addr(n[3].v.a))] == n;
    }
  }

  /** Text in position 3 of an AAAA record that reads as an address is replaced by that address. */
  lemma AddressSlotRead(r: Record, s: string, a: Ipv6Text.Address)
    requires |r| >= 4 && IsAaaa(r[2]) && r[3] == Lit(Text(s)) && Ipv6Text.ParseAddress(s) == Some(a)
    ensures NormalizeAaaa(r) == Ok(r[3 := Lit(Addr(a))])
  {
  }

  /** Two spellings of one address in position 3 of an AAAA record normalize to the same record. */
  lemma SpellingIrrelevant(r: Record, s1: string, s2: string)
    requires |r| >= 4 && IsAaaa(r[2])
    requires Ipv6Text.ParseAddress(s1) == Ipv6Text.ParseAddress(s2)
    ensures NormalizeAaaa(r[3 := Lit(Text(s1))]) == NormalizeAaaa(r[3 := Lit(Text(s2))])
    ensures NormalizeAaaa(r[3 := Lit(Text(s1))]).Ok? <==> Ipv6Text.ParseAddress(s1).Some?
  {
    var r1, r2 := r[3 := Lit(Text(s1))], r[3 := Lit(Text(s2))];
    assert IsAaaa(r1[2]) && IsAaaa(r2[2]);
    match Ipv6Text.ParseAddress(s1)
    case None =>
      assert ToAddress(r1[3].v).None? && ToAddress(r2[3].v).None?;
    case Some(a) =>
      AddressSlotRead(r1, s1, a);
      AddressSlotRead(r2, s2, a);
      assert r1[3 := Lit(Addr(a))] == r2[3 := Lit(Addr(a))];
  }

  /** A predicate where an AAAA pattern holds its address cannot be read as an address: it raises. */
  lemma PredicateInAddressSlotRaises(p: Record, accepts: Value -> bool)
    requires |p| >= 4 && IsAaaa(p[2])
    ensures NormalizeAaaa(p[3 := Pred(accepts)]) == Err(BadAddress)
  {
    assert IsAaaa(p[3 := Pred(accepts)][2]);
  }

  /** A captured answer once prepared: TTL dropped, AAAA address read. */
  function PrepareAnswer(c: Record): (res: Result<Record, Fault>)
    ensures |c| < 4 ==> res == Err(FieldMissing)
    ensures |c| >= 4 && !IsAaaa(c[3]) ==> res == Ok(c[..1] + c[2..])
    ensures |c| == 4 && IsAaaa(c[3]) ==> res == Err(FieldMissing)
    ensures |c| >= 5 && IsAaaa(c[3]) ==> (res.Ok? <==> c[4].Lit? && ToAddress(c[4].v).Some?)
    ensures |c| >= 5 && IsAaaa(c[3]) && res.Err? ==> res.error == BadAddress
    ensures res.Ok? ==> |res.value| == |c| - 1 && res.value[0] == c[0]
    ensures |c| >= 5 && IsAaaa(c[3]) && res.Ok? ==> res.value[3] == Lit(Addr(ToAddress(c[4].v).value))
    ensures res.Ok? ==> forall k :: 1 <= k < |res.value| && k != 3 ==> res.value[k] == c[k + 1]
  {
    NormalizeAaaa(DropTtl(c))
  }

  /** Two captured answers that differ only in the TTL at position 1. */
  ghost predicate DiffersOnlyInTtl(c1: Record, c2: Record) {
    |c1| == |c2| && forall k :: 0 <= k < |c1| && k != 1 ==> c1[k] == c2[k]
  }

  /** Dropping the TTL forgets everything that told the two records apart. */
  lemma DropTtlForgetsTtl(c1: Record, c2: Record)
    requires DiffersOnlyInTtl(c1, c2)
    ensures DropTtl(c1) == DropTtl(c2)
  {
    if |c1| < 2 {
      assert forall k :: 0 <= k < |c1| ==> c1[k] == c2[k];
    } else {
      var d1, d2 := DropTtl(c1), DropTtl(c2);
      forall k | 0 <= k < |d1|
        ensures d1[k] == d2[k]
      {
        if k == 0 { assert d1[k] == c1[0] && d2[k] == c2[0]; }
        else { assert d1[k] == c1[k + 1] && d2[k] == c2[k + 1]; }
      }
    }
  }

  /** The TTL never reaches the comparison: records that differ only there prepare alike. */
  lemma TtlIrrelevant(c1: Record, c2: Record)
    requires DiffersOnlyInTtl(c1, c2)
    ensures PrepareAnswer(c1) == PrepareAnswer(c2)
  {
    DropTtlForgetsTtl(c1, c2);
  }

  /**
   * A captured answer matches a pattern when both prepare without raising
   * and the prepared record matches the prepared pattern.
   */
  predicate AnswerMatches(c: Record, p: Record) {
    match (PrepareAnswer(c), NormalizeAaaa(p))
    case (Ok(d), Ok(q)) => MatchRecord(d, q) == Ok(true)
    case _ => false
  }

  /** A question record matches a pattern as it is: no TTL removal, no address reading. */
  predicate QuestionMatches(c: Record, q: Record) {
    MatchRecord(c, q) == Ok(true)
  }

  /** A captured answer that prepares without raising and holds no predicate. */
  predicate CleanAnswer(c: Record) {
    PrepareAnswer(c).Ok? && !HasPredicate(PrepareAnswer(c).value)
  }
}

=== FILE: scenario.dfy ===
/**
 * The check the multi-client DNS-SD test makes once a Wi-Fi host has
 * published its addresses: an AAAA query for the host's name must come back
 * as a QUERY/NOERROR response with the one question asked and exactly one
 * answer, the host's routable address. The captured responses below are
 * shaped as the query tool prints them: answers carry a TTL at position 1,
 * and the address is in whatever spelling the tool chose.
 */
module MultiClientScenario {
  import opened Wrappers
  import opened Ipv6Text
  import opened RecordMatcher
  import opened SectionVerifier
  import opened SectionProperties

  const DOMAIN := "default.service.arpa."
  const WIFI_HOST_FULL_NAME := "wifi-host." + DOMAIN
  const WIFI_HOST_ROUTABLE_ADDRESS := "2402::abcd"

  /** The routable address with every group written out: `2402:0:0:0:0:0:0:abcd`. */
  const ROUTABLE_IN_FULL := Join(["2402", "0", "0", "0", "0", "0", "0", "abcd"], ':')

  /** The groups of the routable address. */
  const ROUTABLE: Address := [0x2402, 0, 0, 0, 0, 0, 0, 0xabcd]

  function Name(): Field {
    Lit(Text(WIFI_HOST_FULL_NAME))
  }

  /** The question the test expects: (name, class, type). */
  function HostQuestion(): Record {
    [Name(), Lit(Text("IN")), Lit(AAAA)]
  }

  /** An expected answer: (name, class, type, address), without a TTL. */
  function HostAnswer(address: string): Record {
    [Name(), Lit(Text("IN")), Lit(AAAA), Lit(Text(address))]
  }

  /** A captured answer: (name, TTL, class, type, address). */
  function CapturedAnswer(ttl: string, address: string): Record {
    [Name(), Lit(Text(ttl)), Lit(Text("IN")), Lit(AAAA), Lit(Text(address))]
  }

  /** The host's question and the given answers; opcode and status are left to their defaults, ADDITIONAL is not checked. */
  function ExpectAnswers(answers: seq<Record>): Expectation {
    Expectation(None, None, Some([HostQuestion()]), Some(answers), None)
  }

  /** What the test expects of the AAAA query for the host. */
  function Expected(address: string): Expectation {
    ExpectAnswers([HostAnswer(address)])
  }

  /** A NOERROR response to the query with the given answers and nothing additional. */
  function Response(answers: seq<Record>): DigResult {
    DigResult(QUERY, NOERROR, [HostQuestion()], answers, [])
  }

  // ---------------------------------------------------------------------------
  // Reading the routable address

  lemma HexOf2402()
    ensures ToHex(0x2402) == "2402"
  {
    assert ToHex(0x2) == "2";
    assert ToHex(0x24) == "24";
    assert ToHex(0x240) == "240";
  }

  lemma HexOfAbcd()
    ensures ToHex(0xabcd) == "abcd"
  {
    assert ToHex(0xa) == "a";
    assert ToHex(0xab) == "ab";
    assert ToHex(0xabc) == "abc";
  }

  /** The compressed spelling is the two outer groups around an empty one. */
  lemma RoutableTextJoined()
    ensures Join(Lead(["2402"]) + ["2402"] + [[]] + ["abcd"] + Trail(["abcd"]), ':') == WIFI_HOST_ROUTABLE_ADDRESS
  {
    var t := Lead(["2402"]) + ["2402"] + [[]] + ["abcd"] + Trail(["abcd"]);
    assert t == ["2402", "", "abcd"];
    assert t[1..] == ["", "abcd"];
    assert t[1..][1..] == ["abcd"];
    assert Join(t[1..], ':') == [] + [':'] + "abcd";
  }

  /** The elided groups are the six zeros of the routable address. */
  lemma RoutableGroupsFilled()
    ensures [0x2402] + Zeros(GROUPS - 1 - 1) + [0xabcd] == ROUTABLE
  {
    assert Zeros(6) == [0, 0, 0, 0, 0, 0];
  }

  /** The routable address as the test writes it, with its zero groups elided. */
  lemma RoutableAddressText()
    ensures ParseAddress(WIFI_HOST_ROUTABLE_ADDRESS) == Some(ROUTABLE)
  {
    HexOf2402();
    HexOfAbcd();
    ReadHexTexts([0x2402]);
    ReadHexTexts([0xabcd]);
    RoutableTextJoined();
    RoutableGroupsFilled();
    ReadCompressedText(["2402"], [0x2402], ["abcd"], [0xabcd]);
  }

  lemma RoutableTextsInFull()
    ensures HexTexts(ROUTABLE) == ["2402", "0", "0", "0", "0", "0", "0", "abcd"]
  {
    HexOf2402();
    HexOfAbcd();
    assert ToHex(0) == "0";
  }

  /** The same address with every group written out reads the same. */
  lemma RoutableAddressInFull()
    ensures ParseAddress(ROUTABLE_IN_FULL) == Some(ROUTABLE)
  {
    ReadHexTexts(ROUTABLE);
    RoutableTextsInFull();
    ReadFullText(["2402", "0", "0", "0", "0", "0", "0", "abcd"], ROUTABLE);
  }

  // ---------------------------------------------------------------------------
  // The expectation against captured responses

  /** The captured question is the expected one, so the question section passes. */
  lemma QuestionSectionPasses(dig: DigResult)
    requires dig.question == [HostQuestion()]
    ensures CheckQuestions(dig, Some([HostQuestion()])) == Success
  {
    MatchReflexive(HostQuestion());
    assert FindQuestion(dig.question, HostQuestion()) == Found;
  }

  /** A captured answer loses its TTL and becomes the answer as the test writes it. */
  lemma CapturedWithoutTtl(ttl: string, address: string)
    ensures DropTtl(CapturedAnswer(ttl, address)) == HostAnswer(address)
  {
  }

  /** The host's answer once its address is read. */
  function AddressedAnswer(a: Address): Record {
    [Name(), Lit(Text("IN")), Lit(AAAA), Lit(Addr(a))]
  }

  /** A captured answer prepares into the host's answer holding the address it spells. */
  lemma CapturedPrepared(ttl: string, printed: string, a: Address)
    requires ParseAddress(printed) == Some(a)
    ensures PrepareAnswer(CapturedAnswer(ttl, printed)) == Ok(AddressedAnswer(a))
  {
    CapturedWithoutTtl(ttl, printed);
    AddressSlotRead(HostAnswer(printed), printed, a);
    assert HostAnswer(printed)[3 := Lit(Addr(a))] == AddressedAnswer(a);
  }

  /** An expected answer normalizes into the host's answer holding the address it spells. */
  lemma WrittenNormalized(written: string, a: Address)
    requires ParseAddress(written) == Some(a)
    ensures NormalizeAaaa(HostAnswer(written)) == Ok(AddressedAnswer(a))
  {
    AddressSlotRead(HostAnswer(written), written, a);
    assert HostAnswer(written)[3 := Lit(Addr(a))] == AddressedAnswer(a);
  }

  lemma AddressedMatchesItself(a: Address)
    ensures !HasPredicate(AddressedAnswer(a))
    ensures MatchRecord(AddressedAnswer(a), AddressedAnswer(a)) == Ok(true)
  {
    var d := AddressedAnswer(a);
    assert forall i :: 0 <= i < |d| ==> d[i].Lit?;
    MatchReflexive(d);
  }

  /**
   * A captured answer matches the expected answer when their address texts
   * read as the same address, and neither raises.
   */
  lemma CapturedAnswerMatches(ttl: string, printed: string, written: string, a: Address)
    requires ParseAddress(printed) == Some(a) && ParseAddress(written) == Some(a)
    ensures CleanAnswer(CapturedAnswer(ttl, printed))
    ensures NormalizeAaaa(HostAnswer(written)).Ok?
    ensures AnswerMatches(CapturedAnswer(ttl, printed), HostAnswer(written))
  {
    CapturedPrepared(ttl, printed, a);
    WrittenNormalized(written, a);
    AddressedMatchesItself(a);
  }

  /** A response whose one answer matches the one expected answer, with nothing raising, meets the expectation. */
  lemma OnlyAnswerMatches(c: Record, p: Record)
    requires CleanAnswer(c) && NormalizeAaaa(p).Ok? && AnswerMatches(c, p)
    ensures Verify(Response([c]), ExpectAnswers([p])) == Success
  {
    var dig := Response([c]);
    QuestionSectionPasses(dig);
    assert dig.answer[0] == c;
    FindAnswerStep(dig.answer, p);
    assert FindAnswer(dig.answer, p) == Found;
    assert [p][1..] == [];
    assert AllAnswersFound(dig.answer, [p], 0, false) == Success;
  }

  /**
   * Whatever the TTL, a response whose answer spells the expected address in
   * any way that reads as the same address meets the expectation.
   */
  lemma ExpectationMetBySpelling(ttl: string, written: string, printed: string)
    requires ParseAddress(written).Some? && ParseAddress(printed) == ParseAddress(written)
    ensures Verify(Response([CapturedAnswer(ttl, printed)]), Expected(written)) == Success
  {
    CapturedAnswerMatches(ttl, printed, written, ParseAddress(written).value);
    OnlyAnswerMatches(CapturedAnswer(ttl, printed), HostAnswer(written));
  }

  /** The test's expectation is met by a response that writes the routable address in full. */
  lemma ExpectationMet(ttl: string)
    ensures Verify(Response([CapturedAnswer(ttl, ROUTABLE_IN_FULL)]), Expected(WIFI_HOST_ROUTABLE_ADDRESS)) == Success
  {
    RoutableAddressText();
    RoutableAddressInFull();
    ExpectationMetBySpelling(ttl, WIFI_HOST_ROUTABLE_ADDRESS, ROUTABLE_IN_FULL);
  }

  /** A second answer record fails the exact count of the ANSWER section, whatever either record holds. */
  lemma SecondAnswerFails(written: string, first: Record, second: Record)
    ensures Verify(Response([first, second]), Expected(written)) == Failed(AnswerCountMismatch(2, 1))
  {
    QuestionSectionPasses(Response([first, second]));
  }

  /**
   * A predicate where the expected answer holds its address is handed to the
   * address parser, which rejects it: for a response whose one answer is the
   * host's AAAA record, the check raises rather than asking the predicate,
   * whatever TTL and address text that answer carries.
   */
  lemma PredicateForAddressRaises(ttl: string, printed: string, accepts: Value -> bool)
    ensures Verify(Response([CapturedAnswer(ttl, printed)]),
                   ExpectAnswers([HostAnswer(printed)[3 := Pred(accepts)]])) ==
            Failed(Exception(BadAddress))
  {
    var dig := Response([CapturedAnswer(ttl, printed)]);
    var p := HostAnswer(printed)[3 := Pred(accepts)];
    QuestionSectionPasses(dig);
    assert DropTtl(dig.answer[0]) == HostAnswer(printed);
    PredicateInAddressSlotRaises(HostAnswer(printed), accepts);
    assert FindAnswer(dig.answer, p) == Raised(BadAddress);
  }

  /**
   * The first answer decides both patterns it matches: the search for each
   * stops there, so the record beside it is never read and need not match
   * or even prepare.
   */
  lemma FirstAnswerMeetsBoth(c: Record, other: Record, p1: Record, p2: Record)
    requires CleanAnswer(c) && NormalizeAaaa(p1).Ok? && NormalizeAaaa(p2).Ok?
    requires AnswerMatches(c, p1) && AnswerMatches(c, p2)
    ensures Verify(Response([c, other]), ExpectAnswers([p1, p2])) == Success
  {
    var dig, patterns := Response([c, other]), [p1, p2];
    QuestionSectionPasses(dig);
    assert dig.answer[0] == c;
    FindAnswerStep(dig.answer, p1);
    FindAnswerStep(dig.answer, p2);
    assert FindAnswer(dig.answer, p1) == Found && FindAnswer(dig.answer, p2) == Found;
    assert patterns[0] == p1 && patterns[1..] == [p2] && [p2][1..] == [];
    assert AllAnswersFound(dig.answer, [p2], 1, false) == Success;
    assert AllAnswersFound(dig.answer, patterns, 0, false) == Success;
  }

  /**
   * Matching is not one-to-one: two answer patterns, the address as written
   * and the address respelled, are both met by the first captured answer,
   * and the record beside it, whatever it holds, is never read.
   */
  lemma OneRecordMeetsTwoPatterns(ttl: string, written: string, respelled: string, other: Record)
    requires ParseAddress(written).Some? && ParseAddress(respelled) == ParseAddress(written)
    ensures Verify(Response([CapturedAnswer(ttl, written), other]),
                   ExpectAnswers([HostAnswer(written), HostAnswer(respelled)])) ==
            Success
  {
    var a := ParseAddress(written).value;
    CapturedAnswerMatches(ttl, written, written, a);
    CapturedAnswerMatches(ttl, written, respelled, a);
    FirstAnswerMeetsBoth(CapturedAnswer(ttl, written), other, HostAnswer(written), HostAnswer(respelled));
  }
}

=== FILE: section_properties.dfy ===
/**
 * What the section verifier promises: a pattern is found exactly when some
 * captured record of its section matches it, a verification succeeds exactly
 * when every stated constraint holds, and the checks run in their fixed
 * order with the cardinality rules of each section.
 */
module SectionProperties {
  import opened Wrappers
  import opened RecordMatcher
  import opened SectionVerifier

  // ---------------------------------------------------------------------------
  // One pattern in one section

  /**
   * The question search finds a pattern only when some record matches it,
   * reports "not found" exactly when every record is free of predicates and
   * none matches, and otherwise raises the matcher's own assertion.
   */
  lemma {:induction false} FindQuestionMeaning(section: seq<Record>, q: Record)
    ensures FindQuestion(section, q) == Found ==>
              exists i :: 0 <= i < |section| && QuestionMatches(section[i], q)
    ensures FindQuestion(section, q) == NotFound <==>
              forall i :: 0 <= i < |section| ==> !HasPredicate(section[i]) && !QuestionMatches(section[i], q)
    ensures FindQuestion(section, q).Raised? ==>
              FindQuestion(section, q) == Raised(InvariantViolation) &&
              exists i :: 0 <= i < |section| && HasPredicate(section[i])
  {
    if section != [] {
      FindQuestionMeaning(section[1..], q);
      var rest := section[1..];
      if MatchRecord(section[0], q) == Ok(false) {
        HoldsForPrefixCons(r => !HasPredicate(r) && !QuestionMatches(r, q), section, |section| - 1);
        if FindQuestion(rest, q) == Found {
          ExistsFromTail(r => QuestionMatches(r, q), section);
        }
        if FindQuestion(rest, q).Raised? {
          ExistsFromTail(r => HasPredicate(r), section);
        }
      }
    }
  }

  /** In a section free of predicates, the question search is "some record matches". */
  lemma QuestionFoundIffSomeRecordMatches(section: seq<Record>, q: Record)
    requires forall i :: 0 <= i < |section| ==> !HasPredicate(section[i])
    ensures FindQuestion(section, q) ==
            if exists i :: 0 <= i < |section| && QuestionMatches(section[i], q) then Found else NotFound
  {
    FindQuestionMeaning(section, q);
  }

  /** Searching with the pattern as the previous round left it gives the same result as searching with the pattern itself. */
  lemma FindAnswerRenormalized(section: seq<Record>, p: Record)
    requires NormalizeAaaa(p).Ok?
    ensures FindAnswer(section, NormalizeAaaa(p).value) == FindAnswer(section, p)
  {
    NormalizeIdempotent(p);
  }

  /**
   * One round of the answer search: when the first captured record and the
   * pattern both prepare cleanly, the search is found on a match and goes on
   * with the rest of the section otherwise; in every other case it raises.
   */
  lemma FindAnswerStep(section: seq<Record>, p: Record)
    requires section != []
    ensures CleanAnswer(section[0]) && NormalizeAaaa(p).Ok? ==>
              FindAnswer(section, p) == if AnswerMatches(section[0], p) then Found else FindAnswer(section[1..], p)
    ensures !(CleanAnswer(section[0]) && NormalizeAaaa(p).Ok?) ==> FindAnswer(section, p).Raised?
    ensures PrepareAnswer(section[0]).Err? ==> FindAnswer(section, p) == Raised(PrepareAnswer(section[0]).error)
    ensures PrepareAnswer(section[0]).Ok? && NormalizeAaaa(p).Err? ==>
              FindAnswer(section, p) == Raised(NormalizeAaaa(p).error)
    ensures PrepareAnswer(section[0]).Ok? && NormalizeAaaa(p).Ok? && HasPredicate(PrepareAnswer(section[0]).value) ==>
              FindAnswer(section, p) == Raised(InvariantViolation)
    ensures !(CleanAnswer(section[0]) && NormalizeAaaa(p).Ok?) ==>
              FindAnswer(section, p) == Raised(RoundFault(section[0], p))
  {
    if CleanAnswer(section[0]) && NormalizeAaaa(p).Ok? {
      FindAnswerRenormalized(section[1..], p);
    }
  }

  /**
   * The fault of a round that cannot compare: the captured record is prepared
   * first, then the pattern, and only then does the matcher assert that the
   * prepared record holds no predicate.
   */
  function RoundFault(c: Record, p: Record): Fault {
    if PrepareAnswer(c).Err? then PrepareAnswer(c).error
    else if NormalizeAaaa(p).Err? then NormalizeAaaa(p).error
    else InvariantViolation
  }

  /** A round that compares and does not match: the search goes on with the next record. */
  predicate RoundContinues(c: Record, p: Record) {
    CleanAnswer(c) && NormalizeAaaa(p).Ok? && !AnswerMatches(c, p)
  }

  /**
   * A raised answer search names the first round that could not compare: every
   * record before it prepared cleanly against a pattern that converted and did
   * not match, and the fault is that round's, in the order record, pattern,
   * assertion.
   */
  lemma RaisedNamesFirstUncleanRound(section: seq<Record>, p: Record, f: Fault)
    requires FindAnswer(section, p) == Raised(f)
    ensures exists k :: 0 <= k < |section|
              && (forall j :: 0 <= j < k ==> RoundContinues(section[j], p))
              && !(CleanAnswer(section[k]) && NormalizeAaaa(p).Ok?)
              && f == RoundFault(section[k], p)
  {
    var k := FirstUncleanRound(section, p, f);
    assert (forall j :: 0 <= j < k ==> RoundContinues(section[j], p))
           && !(CleanAnswer(section[k]) && NormalizeAaaa(p).Ok?)
           && f == RoundFault(section[k], p);
  }

  lemma {:induction false} FirstUncleanRound(section: seq<Record>, p: Record, f: Fault) returns (k: nat)
    requires FindAnswer(section, p) == Raised(f)
    ensures k < |section|
    ensures forall j :: 0 <= j < k ==> RoundContinues(section[j], p)
    ensures !(CleanAnswer(section[k]) && NormalizeAaaa(p).Ok?) && f == RoundFault(section[k], p)
  {
    FindAnswerStep(section, p);
    if CleanAnswer(section[0]) && NormalizeAaaa(p).Ok? {
      var rest := section[1..];
      var k' := FirstUncleanRound(rest, p, f);
      assert RoundContinues(section[0], p);
      HoldsForPrefixCons(r => RoundContinues(r, p), section, k');
      assert rest[k'] == section[k' + 1];
      k := k' + 1;
    } else {
      k := 0;
    }
  }

  /** The answer search finds a pattern only when some captured record matches it once both are prepared. */
  lemma {:induction false} FoundMeansSomeRecordMatches(section: seq<Record>, p: Record)
    requires FindAnswer(section, p) == Found
    ensures exists i :: 0 <= i < |section| && AnswerMatches(section[i], p)
  {
    FindAnswerStep(section, p);
    if !AnswerMatches(section[0], p) {
      var rest := section[1..];
      FoundMeansSomeRecordMatches(rest, p);
      ExistsFromTail(r => AnswerMatches(r, p), section);
    }
  }

  /**
   * The answer search reports "not found" exactly when every captured record
   * prepares cleanly, none matches, and (unless the section is empty) the
   * pattern prepares too; anything else that is not found raises.
   */
  lemma {:induction false} NotFoundMeansNoRecordMatches(section: seq<Record>, p: Record)
    ensures FindAnswer(section, p) == NotFound <==>
              (section != [] ==> NormalizeAaaa(p).Ok?) &&
              forall i :: 0 <= i < |section| ==> CleanAnswer(section[i]) && !AnswerMatches(section[i], p)
  {
    if FindAnswer(section, p) == NotFound {
      NotFoundOnlyWithoutMatch(section, p);
    }
    if (section != [] ==> NormalizeAaaa(p).Ok?) &&
       forall i :: 0 <= i < |section| ==> CleanAnswer(section[i]) && !AnswerMatches(section[i], p)
    {
      NotFoundWithoutMatch(section, p);
    }
  }

  lemma {:induction false} NotFoundOnlyWithoutMatch(section: seq<Record>, p: Record)
    requires FindAnswer(section, p) == NotFound
    ensures section != [] ==> NormalizeAaaa(p).Ok?
    ensures forall i :: 0 <= i < |section| ==> CleanAnswer(section[i]) && !AnswerMatches(section[i], p)
  {
    if section != [] {
      var rest := section[1..];
      FindAnswerStep(section, p);
      NotFoundOnlyWithoutMatch(rest, p);
      HoldsForPrefixCons(r => CleanAnswer(r) && !AnswerMatches(r, p), section, |section| - 1);
    }
  }

  lemma {:induction false} NotFoundWithoutMatch(section: seq<Record>, p: Record)
    requires section != [] ==> NormalizeAaaa(p).Ok?
    requires forall i :: 0 <= i < |section| ==> CleanAnswer(section[i]) && !AnswerMatches(section[i], p)
    ensures FindAnswer(section, p) == NotFound
  {
    if section != [] {
      var rest := section[1..];
      FindAnswerStep(section, p);
      HoldsForPrefixCons(r => CleanAnswer(r) && !AnswerMatches(r, p), section, |section| - 1);
      NotFoundWithoutMatch(rest, p);
    }
  }

  /** In a section whose records all prepare cleanly, against a pattern that prepares, the answer search is "some record matches". */
  lemma AnswerFoundIffSomeRecordMatches(section: seq<Record>, p: Record)
    requires forall i :: 0 <= i < |section| ==> CleanAnswer(section[i])
    requires NormalizeAaaa(p).Ok?
    ensures FindAnswer(section, p) ==
            if exists i :: 0 <= i < |section| && AnswerMatches(section[i], p) then Found else NotFound
  {
    NotFoundMeansNoRecordMatches(section, p);
    if FindAnswer(section, p) == Found {
      FoundMeansSomeRecordMatches(section, p);
    } else if FindAnswer(section, p).Raised? {
      RaisedNeedsUncleanRecord(section, p);
    }
  }

  /** The answer search raises only on a record or pattern that does not prepare cleanly. */
  lemma {:induction false} RaisedNeedsUncleanRecord(section: seq<Record>, p: Record)
    requires FindAnswer(section, p).Raised?
    ensures NormalizeAaaa(p).Err? || exists i :: 0 <= i < |section| && !CleanAnswer(section[i])
  {
    FindAnswerStep(section, p);
    if CleanAnswer(section[0]) && NormalizeAaaa(p).Ok? {
      var rest := section[1..];
      RaisedNeedsUncleanRecord(rest, p);
      ExistsFromTail(r => !CleanAnswer(r), section);
    }
  }

  lemma TailOfConcat<T>(a: seq<T>, b: seq<T>)
    requires a != []
    ensures (a + b)[1..] == a[1..] + b
  {
  }

  /** A captured record that matches first decides the search: records after it are never read. */
  lemma {:induction false} FoundIgnoresLaterRecords(section: seq<Record>, extra: seq<Record>, p: Record)
    requires FindAnswer(section, p) == Found
    ensures FindAnswer(section + extra, p) == Found
  {
    var s := section + extra;
    FindAnswerStep(section, p);
    assert CleanAnswer(section[0]) && NormalizeAaaa(p).Ok?;
    assert s[0] == section[0];
    FindAnswerStep(s, p);
    if !AnswerMatches(section[0], p) {
      assert FindAnswer(section[1..], p) == Found;
      TailOfConcat(section, extra);
      FoundIgnoresLaterRecords(section[1..], extra, p);
    }
  }

  /** Answers that differ only in their TTLs give the same search result. */
  lemma {:induction false} FindAnswerIgnoresTtl(s1: seq<Record>, s2: seq<Record>, p: Record)
    requires |s1| == |s2|
    requires forall i :: 0 <= i < |s1| ==> DiffersOnlyInTtl(s1[i], s2[i])
    ensures FindAnswer(s1, p) == FindAnswer(s2, p)
  {
    if s1 != [] {
      TtlIrrelevant(s1[0], s2[0]);
      if NormalizeAaaa(p).Ok? {
        FindAnswerIgnoresTtl(s1[1..], s2[1..], NormalizeAaaa(p).value);
      }
    }
  }

  // ---------------------------------------------------------------------------
  // Every pattern of one section

  /** Every pattern of `patterns` is matched by some question record. */
  ghost predicate AllQuestionsMatched(section: seq<Record>, patterns: seq<Record>) {
    forall j :: 0 <= j < |patterns| ==> exists i :: 0 <= i < |section| && QuestionMatches(section[i], patterns[j])
  }

  /** Every pattern of `patterns` is matched by some captured answer. */
  ghost predicate AllAnswersMatched(section: seq<Record>, patterns: seq<Record>) {
    forall j :: 0 <= j < |patterns| ==> exists i :: 0 <= i < |section| && AnswerMatches(section[i], patterns[j])
  }

  /** The question records hold no predicate. */
  predicate QuestionsClean(section: seq<Record>) {
    forall i :: 0 <= i < |section| ==> !HasPredicate(section[i])
  }

  /** The captured answers all prepare cleanly, and so does every pattern when there is a record to compare it with. */
  predicate AnswersClean(section: seq<Record>, patterns: seq<Record>) {
    && (forall i :: 0 <= i < |section| ==> CleanAnswer(section[i]))
    && (section != [] ==> forall j :: 0 <= j < |patterns| ==> NormalizeAaaa(patterns[j]).Ok?)
  }

  /** All question patterns are found only when each is matched by some question record. */
  lemma {:induction false} AllQuestionsFoundSound(section: seq<Record>, patterns: seq<Record>, from: nat)
    requires AllQuestionsFound(section, patterns, from) == Success
    ensures AllQuestionsMatched(section, patterns)
    decreases |patterns|
  {
    if patterns != [] {
      var rest := patterns[1..];
      assert FindQuestion(section, patterns[0]) == Found;
      FindQuestionMeaning(section, patterns[0]);
      AllQuestionsFoundSound(section, rest, from + 1);
      HoldsForPrefixCons(p => exists i :: 0 <= i < |section| && QuestionMatches(section[i], p), patterns, |patterns| - 1);
    }
  }

  /** In a section free of predicates, every question pattern matched by some record is found. */
  lemma {:induction false} AllQuestionsFoundComplete(section: seq<Record>, patterns: seq<Record>, from: nat)
    requires QuestionsClean(section) && AllQuestionsMatched(section, patterns)
    ensures AllQuestionsFound(section, patterns, from) == Success
    decreases |patterns|
  {
    if patterns != [] {
      var rest := patterns[1..];
      assert patterns[0] in patterns;
      assert exists i :: 0 <= i < |section| && QuestionMatches(section[i], patterns[0]);
      QuestionFoundIffSomeRecordMatches(section, patterns[0]);
      HoldsForPrefixCons(p => exists i :: 0 <= i < |section| && QuestionMatches(section[i], p), patterns, |patterns| - 1);
      AllQuestionsFoundComplete(section, rest, from + 1);
    }
  }

  /** All answer patterns are found only when each is matched by some captured record. */
  lemma {:induction false} AllAnswersFoundSound(section: seq<Record>, patterns: seq<Record>, from: nat, additional: bool)
    requires AllAnswersFound(section, patterns, from, additional) == Success
    ensures AllAnswersMatched(section, patterns)
    decreases |patterns|
  {
    if patterns != [] {
      var rest := patterns[1..];
      assert FindAnswer(section, patterns[0]) == Found;
      FoundMeansSomeRecordMatches(section, patterns[0]);
      AllAnswersFoundSound(section, rest, from + 1, additional);
      AnswersMatchedCons(section, patterns);
    }
  }

  /** Every pattern is matched when the first one is and all the others are. */
  lemma AnswersMatchedCons(section: seq<Record>, patterns: seq<Record>)
    requires patterns != []
    requires exists i :: 0 <= i < |section| && AnswerMatches(section[i], patterns[0])
    requires AllAnswersMatched(section, patterns[1..])
    ensures AllAnswersMatched(section, patterns)
  {
    HoldsForPrefixCons(p => exists i :: 0 <= i < |section| && AnswerMatches(section[i], p), patterns, |patterns| - 1);
  }

  /** When nothing raises, every answer pattern matched by some captured record is found. */
  lemma {:induction false} AllAnswersFoundComplete(section: seq<Record>, patterns: seq<Record>, from: nat, additional: bool)
    requires AnswersClean(section, patterns) && AllAnswersMatched(section, patterns)
    ensures AllAnswersFound(section, patterns, from, additional) == Success
    decreases |patterns|
  {
    if patterns != [] {
      var rest := patterns[1..];
      assert patterns[0] in patterns;
      assert exists i :: 0 <= i < |section| && AnswerMatches(section[i], patterns[0]);
      AnswerFoundIffSomeRecordMatches(section, patterns[0]);
      forall j | 0 <= j < |rest|
        ensures exists i :: 0 <= i < |section| && AnswerMatches(section[i], rest[j])
        ensures NormalizeAaaa(rest[j]).Ok?
      {
        assert rest[j] == patterns[j + 1];
      }
      AllAnswersFoundComplete(section, rest, from + 1, additional);
    }
  }

  // ---------------------------------------------------------------------------
  // Which pattern a failure names

  /** The question search finds each of the first `k` patterns. */
  predicate QuestionsFoundBefore(section: seq<Record>, patterns: seq<Record>, k: nat)
    requires k <= |patterns|
  {
    forall j :: 0 <= j < k ==> FindQuestion(section, patterns[j]) == Found
  }

  /** The answer search finds each of the first `k` patterns. */
  predicate AnswersFoundBefore(section: seq<Record>, patterns: seq<Record>, k: nat)
    requires k <= |patterns|
  {
    forall j :: 0 <= j < k ==> FindAnswer(section, patterns[j]) == Found
  }

  /** Pattern `k` is the first question pattern the search does not find. */
  predicate FirstQuestionMiss(section: seq<Record>, patterns: seq<Record>, k: nat) {
    k < |patterns| && FindQuestion(section, patterns[k]) == NotFound && QuestionsFoundBefore(section, patterns, k)
  }

  /** Pattern `k` is the first answer pattern the search does not find. */
  predicate FirstAnswerMiss(section: seq<Record>, patterns: seq<Record>, k: nat) {
    k < |patterns| && FindAnswer(section, patterns[k]) == NotFound && AnswersFoundBefore(section, patterns, k)
  }

  /**
   * The patterns are searched for in order: the outcome is a success exactly
   * when every pattern is found, and otherwise names the first pattern whose
   * search did not find it (counting from `from`) or carries what that
   * search raised.
   */
  lemma AllQuestionsFoundFirstMiss(section: seq<Record>, patterns: seq<Record>, from: nat)
    ensures AllQuestionsFound(section, patterns, from) == Success <==>
              QuestionsFoundBefore(section, patterns, |patterns|)
    ensures var o := AllQuestionsFound(section, patterns, from);
            o.Failed? ==> o.failure.QuestionNotFound? || o.failure.Exception?
    ensures var o := AllQuestionsFound(section, patterns, from);
            o.Failed? && o.failure.QuestionNotFound? ==>
              from <= o.failure.pattern && FirstQuestionMiss(section, patterns, o.failure.pattern - from)
    ensures var o := AllQuestionsFound(section, patterns, from);
            o.Failed? && o.failure.Exception? ==>
              exists k :: 0 <= k < |patterns| && FindQuestion(section, patterns[k]) == Raised(o.failure.fault)
                          && QuestionsFoundBefore(section, patterns, k)
  {
    var o := AllQuestionsFound(section, patterns, from);
    AllQuestionsFoundInOrder(section, patterns, from);
    SearchInOrderSucceeds(QuestionSearch(section), patterns, from, QuestionMissed());
    QuestionsFoundBeforeInOrder(section, patterns, |patterns|);
    if o.Failed? {
      var k := SearchInOrderStopsAt(QuestionSearch(section), patterns, from, QuestionMissed());
      QuestionsFoundBeforeInOrder(section, patterns, k);
      if o.failure.Exception? {
        assert FindQuestion(section, patterns[k]) == Raised(o.failure.fault);
      } else {
        assert o.failure == QuestionNotFound(from + k);
        assert FindQuestion(section, patterns[k]) == NotFound;
        assert FirstQuestionMiss(section, patterns, k);
        assert o.failure.pattern - from == k;
      }
    }
  }

  /**
   * The same for the answer and additional sections: the failure that names a
   * pattern says which of the two sections it came from.
   */
  lemma AllAnswersFoundFirstMiss(section: seq<Record>, patterns: seq<Record>, from: nat, additional: bool)
    ensures AllAnswersFound(section, patterns, from, additional) == Success <==>
              AnswersFoundBefore(section, patterns, |patterns|)
    ensures var o := AllAnswersFound(section, patterns, from, additional);
            o.Failed? ==>
              (if additional then o.failure.AdditionalNotFound? else o.failure.AnswerNotFound?) || o.failure.Exception?
    ensures var o := AllAnswersFound(section, patterns, from, additional);
            o.Failed? && !o.failure.Exception? ==>
              from <= o.failure.pattern && FirstAnswerMiss(section, patterns, o.failure.pattern - from)
    ensures var o := AllAnswersFound(section, patterns, from, additional);
            o.Failed? && o.failure.Exception? ==>
              exists k :: 0 <= k < |patterns| && FindAnswer(section, patterns[k]) == Raised(o.failure.fault)
                          && AnswersFoundBefore(section, patterns, k)
  {
    var o := AllAnswersFound(section, patterns, from, additional);
    AllAnswersFoundInOrder(section, patterns, from, additional);
    SearchInOrderSucceeds(AnswerSearch(section), patterns, from, AnswerMissed(additional));
    AnswersFoundBeforeInOrder(section, patterns, |patterns|);
    if o.Failed? {
      var k := SearchInOrderStopsAt(AnswerSearch(section), patterns, from, AnswerMissed(additional));
      AnswersFoundBeforeInOrder(section, patterns, k);
      if o.failure.Exception? {
        assert FindAnswer(section, patterns[k]) == Raised(o.failure.fault);
      } else {
        assert o.failure == AnswerMissed(additional)(from + k);
        assert FindAnswer(section, patterns[k]) == NotFound;
        assert FirstAnswerMiss(section, patterns, k);
        assert o.failure.pattern - from == k;
      }
    }
  }

  /** The question search as a function of the pattern. */
  function QuestionSearch(section: seq<Record>): Record -> Search {
    q => FindQuestion(section, q)
  }

  /** The answer search as a function of the pattern. */
  function AnswerSearch(section: seq<Record>): Record -> Search {
    p => FindAnswer(section, p)
  }

  /** The failure the question loop reports for the pattern at a position. */
  function QuestionMissed(): nat -> Failure {
    (i: nat) => QuestionNotFound(i)
  }

  /** The failure the answer loop reports for the pattern at a position. */
  function AnswerMissed(additional: bool): nat -> Failure {
    (i: nat) => if additional then AdditionalNotFound(i) else AnswerNotFound(i)
  }

  /**
   * Both section loops, with the search and the "not found" failure as
   * parameters: the first pattern not found, or the first fault, ends them.
   */
  function SearchInOrder<T>(search: T -> Search, s: seq<T>, from: nat, missed: nat -> Failure): Outcome
    decreases |s|
  {
    if s == [] then Success
    else
      match search(s[0])
      case Found => SearchInOrder(search, s[1..], from + 1, missed)
      case NotFound => Failed(missed(from))
      case Raised(f) => Failed(Exception(f))
  }

  /** The search finds each of the first `k` elements. */
  predicate FoundBefore<T>(search: T -> Search, s: seq<T>, k: nat)
    requires k <= |s|
  {
    forall j :: 0 <= j < k ==> search(s[j]) == Found
  }

  /** The loop succeeds exactly when every element is found. */
  lemma {:induction false} SearchInOrderSucceeds<T>(search: T -> Search, s: seq<T>, from: nat, missed: nat -> Failure)
    ensures SearchInOrder(search, s, from, missed) == Success <==> FoundBefore(search, s, |s|)
    decreases |s|
  {
    if s != [] && search(s[0]) == Found {
      SearchInOrderSucceeds(search, s[1..], from + 1, missed);
      HoldsForPrefixCons(x => search(x) == Found, s, |s| - 1);
    }
  }

  /**
   * When the loop fails, it stopped at a position `k` after finding every
   * earlier element: the element at `k` was not found and the failure names
   * position `from + k`, or its search raised the fault the failure carries.
   */
  lemma SearchInOrderStopsAt<T>(search: T -> Search, s: seq<T>, from: nat, missed: nat -> Failure) returns (k: nat)
    requires SearchInOrder(search, s, from, missed).Failed?
    ensures k < |s| && FoundBefore(search, s, k)
    ensures var f := SearchInOrder(search, s, from, missed).failure;
            || (search(s[k]) == NotFound && f == missed(from + k))
            || (search(s[k]).Raised? && f == Exception(search(s[k]).fault))
  {
    SearchInOrderFails(search, s, from, missed);
    k :| 0 <= k < |s| && FoundBefore(search, s, k)
         && ((search(s[k]) == NotFound && SearchInOrder(search, s, from, missed).failure == missed(from + k))
             || (search(s[k]).Raised? && SearchInOrder(search, s, from, missed).failure == Exception(search(s[k]).fault)));
  }

  lemma {:induction false} SearchInOrderFails<T>(search: T -> Search, s: seq<T>, from: nat, missed: nat -> Failure)
    ensures var o := SearchInOrder(search, s, from, missed);
            o.Failed? ==>
              exists k :: 0 <= k < |s| && FoundBefore(search, s, k)
                          && ((search(s[k]) == NotFound && o.failure == missed(from + k))
                              || (search(s[k]).Raised? && o.failure == Exception(search(s[k]).fault)))
    decreases |s|
  {
    if s != [] && search(s[0]) == Found {
      var rest := s[1..];
      SearchInOrderFails(search, rest, from + 1, missed);
      var o := SearchInOrder(search, rest, from + 1, missed);
      if o.Failed? {
        var k :| 0 <= k < |rest| && FoundBefore(search, rest, k)
                 && ((search(rest[k]) == NotFound && o.failure == missed(from + 1 + k))
                     || (search(rest[k]).Raised? && o.failure == Exception(search(rest[k]).fault)));
        ShiftFound(search, s, k);
        assert rest[k] == s[k + 1] && from + 1 + k == from + (k + 1);
      }
    } else if s != [] {
      assert FoundBefore(search, s, 0);
    }
  }

  /** The first `k + 1` elements are found when the first one is and the `k` after it are. */
  lemma ShiftFound<T>(search: T -> Search, s: seq<T>, k: nat)
    requires k < |s| - 1 && search(s[0]) == Found && FoundBefore(search, s[1..], k)
    ensures FoundBefore(search, s, k + 1)
  {
    HoldsForPrefixCons(x => search(x) == Found, s, k);
  }

  /** The loop of the question section is the in-order search with the question search. */
  lemma {:induction false} AllQuestionsFoundInOrder(section: seq<Record>, patterns: seq<Record>, from: nat)
    ensures AllQuestionsFound(section, patterns, from) == SearchInOrder(QuestionSearch(section), patterns, from, QuestionMissed())
    decreases |patterns|
  {
    if patterns != [] {
      AllQuestionsFoundInOrder(section, patterns[1..], from + 1);
    }
  }

  /** The loop of the answer and additional sections is the in-order search with the answer search. */
  lemma {:induction false} AllAnswersFoundInOrder(section: seq<Record>, patterns: seq<Record>, from: nat, additional: bool)
    ensures AllAnswersFound(section, patterns, from, additional)
            == SearchInOrder(AnswerSearch(section), patterns, from, AnswerMissed(additional))
    decreases |patterns|
  {
    if patterns != [] {
      AllAnswersFoundInOrder(section, patterns[1..], from + 1, additional);
    }
  }

  lemma QuestionsFoundBeforeInOrder(section: seq<Record>, patterns: seq<Record>, k: nat)
    requires k <= |patterns|
    ensures QuestionsFoundBefore(section, patterns, k) <==> FoundBefore(QuestionSearch(section), patterns, k)
  {
  }

  lemma AnswersFoundBeforeInOrder(section: seq<Record>, patterns: seq<Record>, k: nat)
    requires k <= |patterns|
    ensures AnswersFoundBefore(section, patterns, k) <==> FoundBefore(AnswerSearch(section), patterns, k)
  {
  }

  /** An element of the tail that has a property is an element of the whole sequence that has it. */
  lemma ExistsFromTail<T>(holds: T -> bool, s: seq<T>)
    requires s != [] && exists i :: 0 <= i < |s| - 1 && holds(s[1..][i])
    ensures exists i :: 0 <= i < |s| && holds(s[i])
  {
    var i :| 0 <= i < |s| - 1 && holds(s[1..][i]);
    assert s[1..][i] == s[i + 1];
  }

  /** A property holds of the first `k + 1` elements when it holds of the first one and of the `k` after it. */
  lemma HoldsForPrefixCons<T>(holds: T -> bool, s: seq<T>, k: nat)
    requires k < |s| && holds(s[0])
    ensures (forall j :: 0 <= j < k ==> holds(s[1..][j])) <==> (forall j :: 0 <= j < k + 1 ==> holds(s[j]))
  {
    if forall j :: 0 <= j < k ==> holds(s[1..][j]) {
      forall j | 0 < j < k + 1
        ensures holds(s[j])
      {
        assert s[j] == s[1..][j - 1];
      }
    }
  }

  // ---------------------------------------------------------------------------
  // The whole check

  /** Everything the expectation asks of the response, stated without the order of the checks. */
  ghost predicate Satisfies(dig: DigResult, expected: Expectation) {
    && dig.opcode == ExpectedOpcode(expected)
    && dig.status == ExpectedStatus(expected)
    && (expected.question.Some? ==>
          |dig.question| == |expected.question.value| && AllQuestionsMatched(dig.question, expected.question.value))
    && (expected.answer.Some? ==>
          |dig.answer| == |expected.answer.value| && AllAnswersMatched(dig.answer, expected.answer.value))
    && (expected.additional.Some? ==>
          |dig.additional| >= |expected.additional.value| && AllAnswersMatched(dig.additional, expected.additional.value))
  }

  /** Nothing the checks read raises: no predicate in a captured record, no unreadable address, no short record. */
  predicate Clean(dig: DigResult, expected: Expectation) {
    && (expected.question.Some? ==> QuestionsClean(dig.question))
    && (expected.answer.Some? ==> AnswersClean(dig.answer, expected.answer.value))
    && (expected.additional.Some? ==> AnswersClean(dig.additional, expected.additional.value))
  }

  /**
   * A verification succeeds only when the response satisfies the whole
   * expectation; when nothing raises, it succeeds exactly then.
   */
  lemma VerifyMeaning(dig: DigResult, expected: Expectation)
    ensures Verify(dig, expected) == Success ==> Satisfies(dig, expected)
    ensures Clean(dig, expected) && Satisfies(dig, expected) ==> Verify(dig, expected) == Success
  {
    if Verify(dig, expected) == Success {
      if expected.question.Some? {
        AllQuestionsFoundSound(dig.question, expected.question.value, 0);
      }
      if expected.answer.Some? {
        AllAnswersFoundSound(dig.answer, expected.answer.value, 0, false);
      }
      if expected.additional.Some? {
        AllAnswersFoundSound(dig.additional, expected.additional.value, 0, true);
      }
    }
    if Clean(dig, expected) && Satisfies(dig, expected) {
      if expected.question.Some? {
        AllQuestionsFoundComplete(dig.question, expected.question.value, 0);
      }
      if expected.answer.Some? {
        AllAnswersFoundComplete(dig.answer, expected.answer.value, 0, false);
      }
      if expected.additional.Some? {
        AllAnswersFoundComplete(dig.additional, expected.additional.value, 0, true);
      }
    }
  }

  /**
   * Opcode and status are checked first, in that order, against QUERY and
   * NOERROR when the expectation leaves them out; a mismatch is the outcome
   * whatever the sections hold.
   */
  lemma OpcodeAndStatusFirst(dig: DigResult, expected: Expectation)
    ensures expected.opcode.None? ==> ExpectedOpcode(expected) == "QUERY"
    ensures expected.status.None? ==> ExpectedStatus(expected) == "NOERROR"
    ensures dig.opcode != ExpectedOpcode(expected) ==>
              Verify(dig, expected) == Failed(UnexpectedOpcode(dig.opcode, ExpectedOpcode(expected)))
    ensures dig.opcode == ExpectedOpcode(expected) && dig.status != ExpectedStatus(expected) ==>
              Verify(dig, expected) == Failed(UnexpectedStatus(dig.status, ExpectedStatus(expected)))
  {
  }

  /** The response passed the opcode and status checks. */
  predicate HeaderMatches(dig: DigResult, expected: Expectation) {
    dig.opcode == ExpectedOpcode(expected) && dig.status == ExpectedStatus(expected)
  }

  /** A failure of the ANSWER section's own checks. */
  predicate AnswerFailure(f: Failure) {
    f.AnswerCountMismatch? || f.AnswerNotFound?
  }

  /** A failure of the ADDITIONAL section's own checks. */
  predicate AdditionalFailure(f: Failure) {
    f.AdditionalCountTooLow? || f.AdditionalNotFound?
  }

  /**
   * What the question check can report: a count mismatch, a pattern not found
   * or a fault; a pattern not found comes with equal counts and is the first
   * pattern the search does not find.
   */
  lemma CheckQuestionsFailures(dig: DigResult, expected: Option<seq<Record>>)
    ensures var o := CheckQuestions(dig, expected);
            o.Failed? ==> o.failure.QuestionCountMismatch? || o.failure.QuestionNotFound? || o.failure.Exception?
    ensures var o := CheckQuestions(dig, expected);
            o.Failed? && o.failure.QuestionNotFound? ==>
              && expected.Some?
              && |dig.question| == |expected.value|
              && FirstQuestionMiss(dig.question, expected.value, o.failure.pattern)
  {
    if expected.Some? && |dig.question| == |expected.value| {
      AllQuestionsFoundFirstMiss(dig.question, expected.value, 0);
      var o := AllQuestionsFound(dig.question, expected.value, 0);
      if o.Failed? && o.failure.QuestionNotFound? {
        assert o.failure.pattern - 0 == o.failure.pattern;
      }
    }
  }

  /**
   * What the answer and additional checks can report: never a question
   * failure, an opcode or a status; a pattern not found comes with the count
   * the section needs and is the first pattern the search does not find.
   */
  lemma CheckAnswersFailures(dig: DigResult, expected: Option<seq<Record>>, additional: bool)
    ensures var o := CheckAnswers(dig, expected, additional);
            o.Failed? ==> o.failure.Exception? || (if additional then AdditionalFailure(o.failure) else AnswerFailure(o.failure))
    ensures var o := CheckAnswers(dig, expected, additional);
            o.Failed? && (o.failure.AnswerNotFound? || o.failure.AdditionalNotFound?) ==>
              && expected.Some?
              && (if additional then |dig.additional| >= |expected.value| else |dig.answer| == |expected.value|)
              && FirstAnswerMiss(AnswerSection(dig, additional), expected.value, o.failure.pattern)
  {
    if expected.Some? {
      var section := AnswerSection(dig, additional);
      AllAnswersFoundFirstMiss(section, expected.value, 0, additional);
      var o := AllAnswersFound(section, expected.value, 0, additional);
      if o.Failed? && !o.failure.Exception? {
        assert o.failure.pattern - 0 == o.failure.pattern;
      }
    }
  }

  /**
   * Once opcode and status match, the QUESTION section is checked next: its
   * count first, so that a count that differs from the expected one is the
   * outcome whatever the patterns hold, then its patterns in order; a
   * question failure names the first pattern no question record matched.
   */
  lemma QuestionSectionThird(dig: DigResult, expected: Expectation)
    requires HeaderMatches(dig, expected)
    ensures expected.question.Some? && |dig.question| != |expected.question.value| ==>
              Verify(dig, expected) == Failed(QuestionCountMismatch(|dig.question|, |expected.question.value|))
    ensures CheckQuestions(dig, expected.question) != Success ==> Verify(dig, expected) == CheckQuestions(dig, expected.question)
    ensures var o := Verify(dig, expected);
            o.Failed? && o.failure.QuestionNotFound? ==>
              && expected.question.Some?
              && |dig.question| == |expected.question.value|
              && FirstQuestionMiss(dig.question, expected.question.value, o.failure.pattern)
              && forall i :: 0 <= i < |dig.question| ==>
                   !QuestionMatches(dig.question[i], expected.question.value[o.failure.pattern])
  {
    var o := Verify(dig, expected);
    if o.Failed? && o.failure.QuestionNotFound? {
      CheckAnswersFailures(dig, expected.answer, false);
      CheckAnswersFailures(dig, expected.additional, true);
      CheckQuestionsFailures(dig, expected.question);
      FindQuestionMeaning(dig.question, expected.question.value[o.failure.pattern]);
    }
  }

  /**
   * The ANSWER section is checked only after the QUESTION section passed:
   * its exact count first, then its patterns in order.
   */
  lemma AnswerSectionFourth(dig: DigResult, expected: Expectation)
    requires HeaderMatches(dig, expected)
    ensures Verify(dig, expected).Failed? && AnswerFailure(Verify(dig, expected).failure) ==>
              CheckQuestions(dig, expected.question) == Success
    ensures CheckQuestions(dig, expected.question) == Success && expected.answer.Some? && |dig.answer| != |expected.answer.value| ==>
              Verify(dig, expected) == Failed(AnswerCountMismatch(|dig.answer|, |expected.answer.value|))
    ensures CheckQuestions(dig, expected.question) == Success && CheckAnswers(dig, expected.answer, false) != Success ==>
              Verify(dig, expected) == CheckAnswers(dig, expected.answer, false)
    ensures var o := Verify(dig, expected);
            o.Failed? && o.failure.AnswerNotFound? ==>
              && expected.answer.Some?
              && |dig.answer| == |expected.answer.value|
              && FirstAnswerMiss(dig.answer, expected.answer.value, o.failure.pattern)
  {
    var o := Verify(dig, expected);
    if o.Failed? && AnswerFailure(o.failure) {
      CheckQuestionsFailures(dig, expected.question);
      CheckAnswersFailures(dig, expected.answer, false);
      CheckAnswersFailures(dig, expected.additional, true);
    }
  }

  /**
   * The ADDITIONAL section is checked last, only after the QUESTION and ANSWER
   * sections passed: fewer records than expected fails, then its patterns are
   * searched for in order.
   */
  lemma AdditionalSectionLast(dig: DigResult, expected: Expectation)
    requires HeaderMatches(dig, expected)
    ensures Verify(dig, expected).Failed? && AdditionalFailure(Verify(dig, expected).failure) ==>
              CheckQuestions(dig, expected.question) == Success && CheckAnswers(dig, expected.answer, false) == Success
    ensures CheckQuestions(dig, expected.question) == Success && CheckAnswers(dig, expected.answer, false) == Success ==>
              Verify(dig, expected) == CheckAnswers(dig, expected.additional, true)
    ensures && CheckQuestions(dig, expected.question) == Success
            && CheckAnswers(dig, expected.answer, false) == Success
            && expected.additional.Some? && |dig.additional| < |expected.additional.value| ==>
              Verify(dig, expected) == Failed(AdditionalCountTooLow(|dig.additional|, |expected.additional.value|))
    ensures var o := Verify(dig, expected);
            o.Failed? && o.failure.AdditionalNotFound? ==>
              && expected.additional.Some?
              && |dig.additional| >= |expected.additional.value|
              && FirstAnswerMiss(dig.additional, expected.additional.value, o.failure.pattern)
  {
    var o := Verify(dig, expected);
    if o.Failed? && AdditionalFailure(o.failure) {
      CheckQuestionsFailures(dig, expected.question);
      CheckAnswersFailures(dig, expected.answer, false);
      CheckAnswersFailures(dig, expected.additional, true);
    }
  }

  /** A section the expectation leaves out is not read at all. */
  lemma AbsentSectionNotChecked(dig: DigResult, expected: Expectation, other: seq<Record>)
    ensures expected.question.None? ==> Verify(dig.(question := other), expected) == Verify(dig, expected)
    ensures expected.answer.None? ==> Verify(dig.(answer := other), expected) == Verify(dig, expected)
    ensures expected.additional.None? ==> Verify(dig.(additional := other), expected) == Verify(dig, expected)
  {
    if expected.question.None? {
      assert CheckAnswers(dig.(question := other), expected.answer, false) == CheckAnswers(dig, expected.answer, false);
      assert CheckAnswers(dig.(question := other), expected.additional, true) == CheckAnswers(dig, expected.additional, true);
    }
    if expected.answer.None? {
      assert CheckQuestions(dig.(answer := other), expected.question) == CheckQuestions(dig, expected.question);
      assert CheckAnswers(dig.(answer := other), expected.additional, true) == CheckAnswers(dig, expected.additional, true);
    }
    if expected.additional.None? {
      assert CheckQuestions(dig.(additional := other), expected.question) == CheckQuestions(dig, expected.question);
      assert CheckAnswers(dig.(additional := other), expected.answer, false) == CheckAnswers(dig, expected.answer, false);
    }
  }

  /** One question record more than expected fails the count, even where every pattern was matched. */
  lemma ExtraQuestionFails(dig: DigResult, expected: Expectation, extra: Record)
    requires Verify(dig, expected) == Success && expected.question.Some?
    ensures Verify(dig.(question := dig.question + [extra]), expected) ==
            Failed(QuestionCountMismatch(|dig.question| + 1, |dig.question|))
  {
  }

  /** One answer record more than expected fails the count, even where every pattern was matched. */
  lemma ExtraAnswerFails(dig: DigResult, expected: Expectation, extra: Record)
    requires Verify(dig, expected) == Success && expected.answer.Some?
    ensures Verify(dig.(answer := dig.answer + [extra]), expected) ==
            Failed(AnswerCountMismatch(|dig.answer| + 1, |dig.answer|))
  {
    assert CheckQuestions(dig.(answer := dig.answer + [extra]), expected.question) == CheckQuestions(dig, expected.question);
  }

  lemma {:induction false} AllAnswersFoundIgnoresLaterRecords(section: seq<Record>, extra: seq<Record>, patterns: seq<Record>, from: nat)
    requires AllAnswersFound(section, patterns, from, true) == Success
    ensures AllAnswersFound(section + extra, patterns, from, true) == Success
    decreases |patterns|
  {
    if patterns != [] {
      FoundIgnoresLaterRecords(section, extra, patterns[0]);
      AllAnswersFoundIgnoresLaterRecords(section, extra, patterns[1..], from + 1);
    }
  }

  /** Additional records beyond those expected are accepted: a passing response still passes with more. */
  lemma ExtraAdditionalAccepted(dig: DigResult, expected: Expectation, extra: seq<Record>)
    requires Verify(dig, expected) == Success
    ensures Verify(dig.(additional := dig.additional + extra), expected) == Success
  {
    var dig' := dig.(additional := dig.additional + extra);
    assert CheckQuestions(dig', expected.question) == CheckQuestions(dig, expected.question);
    assert CheckAnswers(dig', expected.answer, false) == CheckAnswers(dig, expected.answer, false);
    if expected.additional.Some? {
      AllAnswersFoundIgnoresLaterRecords(dig.additional, extra, expected.additional.value, 0);
    }
  }

  lemma {:induction false} AllAnswersFoundIgnoresTtl(s1: seq<Record>, s2: seq<Record>, patterns: seq<Record>, from: nat, additional: bool)
    requires |s1| == |s2|
    requires forall i :: 0 <= i < |s1| ==> DiffersOnlyInTtl(s1[i], s2[i])
    ensures AllAnswersFound(s1, patterns, from, additional) == AllAnswersFound(s2, patterns, from, additional)
    decreases |patterns|
  {
    if patterns != [] {
      FindAnswerIgnoresTtl(s1, s2, patterns[0]);
      AllAnswersFoundIgnoresTtl(s1, s2, patterns[1..], from + 1, additional);
    }
  }

  /** Responses whose answer and additional records differ only in their TTLs get the same outcome. */
  lemma VerifyIgnoresTtl(dig: DigResult, answer: seq<Record>, additional: seq<Record>, expected: Expectation)
    requires |answer| == |dig.answer| && |additional| == |dig.additional|
    requires forall i :: 0 <= i < |answer| ==> DiffersOnlyInTtl(dig.answer[i], answer[i])
    requires forall i :: 0 <= i < |additional| ==> DiffersOnlyInTtl(dig.additional[i], additional[i])
    ensures Verify(dig.(answer := answer, additional := additional), expected) == Verify(dig, expected)
  {
    var dig' := dig.(answer := answer, additional := additional);
    assert CheckQuestions(dig', expected.question) == CheckQuestions(dig, expected.question);
    if expected.answer.Some? {
      AllAnswersFoundIgnoresTtl(dig.answer, answer, expected.answer.value, 0, false);
    }
    if expected.additional.Some? {
      AllAnswersFoundIgnoresTtl(dig.additional, additional, expected.additional.value, 0, true);
    }
  }

  /** A question pattern found in one section is found in any section, free of predicates, that holds all of its records. */
  lemma QuestionFoundCarriesOver(s1: seq<Record>, s2: seq<Record>, q: Record)
    requires QuestionsClean(s2)
    requires forall i :: 0 <= i < |s1| ==> exists j :: 0 <= j < |s2| && s2[j] == s1[i]
    requires FindQuestion(s1, q) == Found
    ensures FindQuestion(s2, q) == Found
  {
    FindQuestionMeaning(s1, q);
    var i :| 0 <= i < |s1| && QuestionMatches(s1[i], q);
    var j :| 0 <= j < |s2| && s2[j] == s1[i];
    QuestionFoundIffSomeRecordMatches(s2, q);
  }

  /** Two question sections holding the same records, in any order, give the same search result. */
  lemma QuestionOrderIrrelevant(s1: seq<Record>, s2: seq<Record>, q: Record)
    requires QuestionsClean(s1) && QuestionsClean(s2)
    requires forall i :: 0 <= i < |s1| ==> exists j :: 0 <= j < |s2| && s2[j] == s1[i]
    requires forall j :: 0 <= j < |s2| ==> exists i :: 0 <= i < |s1| && s1[i] == s2[j]
    ensures FindQuestion(s1, q) == FindQuestion(s2, q)
  {
    QuestionFoundIffSomeRecordMatches(s1, q);
    QuestionFoundIffSomeRecordMatches(s2, q);
    if FindQuestion(s1, q) == Found {
      QuestionFoundCarriesOver(s1, s2, q);
    } else if FindQuestion(s2, q) == Found {
      QuestionFoundCarriesOver(s2, s1, q);
    }
  }

  /** An answer pattern found in one section is found in any section, whose records all prepare cleanly, that holds all of its records. */
  lemma AnswerFoundCarriesOver(s1: seq<Record>, s2: seq<Record>, p: Record)
    requires forall j :: 0 <= j < |s2| ==> CleanAnswer(s2[j])
    requires forall i :: 0 <= i < |s1| ==> exists j :: 0 <= j < |s2| && s2[j] == s1[i]
    requires FindAnswer(s1, p) == Found
    ensures FindAnswer(s2, p) == Found
  {
    FoundMeansSomeRecordMatches(s1, p);
    var i :| 0 <= i < |s1| && AnswerMatches(s1[i], p);
    var j :| 0 <= j < |s2| && s2[j] == s1[i];
    assert NormalizeAaaa(p).Ok?;
    AnswerFoundIffSomeRecordMatches(s2, p);
  }

  /** Two answer sections holding the same records, in any order, give the same search result. */
  lemma AnswerOrderIrrelevant(s1: seq<Record>, s2: seq<Record>, p: Record)
    requires forall i :: 0 <= i < |s1| ==> CleanAnswer(s1[i])
    requires forall j :: 0 <= j < |s2| ==> CleanAnswer(s2[j])
    requires NormalizeAaaa(p).Ok?
    requires forall i :: 0 <= i < |s1| ==> exists j :: 0 <= j < |s2| && s2[j] == s1[i]
    requires forall j :: 0 <= j < |s2| ==> exists i :: 0 <= i < |s1| && s1[i] == s2[j]
    ensures FindAnswer(s1, p) == FindAnswer(s2, p)
  {
    AnswerFoundIffSomeRecordMatches(s1, p);
    AnswerFoundIffSomeRecordMatches(s2, p);
    if FindAnswer(s1, p) == Found {
      AnswerFoundCarriesOver(s1, s2, p);
    } else if FindAnswer(s2, p) == Found {
      AnswerFoundCarriesOver(s2, s1, p);
    }
  }
}

=== FILE: section_verifier.dfy ===
/**
 * The section verifier of the DNS-SD multi-client border-router test: checks
 * a parsed `dig` response against an expectation, one check after another,
 * stopping at the first that fails. Opcode (default QUERY), then status
 * (default NOERROR), then the QUESTION section (exact size), the ANSWER
 * section (exact size) and the ADDITIONAL section (at least the expected
 * size); in each section every expected pattern must be matched by some
 * captured record, in any position.
 */
module SectionVerifier {
  import opened Wrappers
  import opened RecordMatcher

  /** A parsed `dig` response. */
  datatype DigResult = DigResult(
    opcode: string,
    status: string,
    question: seq<Record>,
    answer: seq<Record>,
    additional: seq<Record>)

  /** What a test expects of a response: every key may be left out. */
  datatype Expectation = Expectation(
    opcode: Option<string>,
    status: Option<string>,
    question: Option<seq<Record>>,
    answer: Option<seq<Record>>,
    additional: Option<seq<Record>>)

  const QUERY := "QUERY"
  const NOERROR := "NOERROR"

  /** Why a verification failed; a pattern is named by its position in the expected section. */
  datatype Failure =
    | UnexpectedOpcode(got: string, want: string)
    | UnexpectedStatus(got: string, want: string)
    | QuestionCountMismatch(count: nat, expectedCount: nat)
    | AnswerCountMismatch(count: nat, expectedCount: nat)
    | AdditionalCountTooLow(count: nat, expectedCount: nat)
    | QuestionNotFound(pattern: nat)
    | AnswerNotFound(pattern: nat)
    | AdditionalNotFound(pattern: nat)
    | Exception(fault: Fault)

  datatype Outcome = Success | Failed(failure: Failure)

  /** The result of looking for one pattern in one section. */
  datatype Search = Found | NotFound | Raised(fault: Fault)

  // ---------------------------------------------------------------------------
  // Looking for one pattern

  /** The question loop: the first record that matches ends the search. */
  function FindQuestion(section: seq<Record>, q: Record): Search
  {
    if section == [] then NotFound
    else
      match MatchRecord(section[0], q)
      case Err(f) => Raised(f)
      case Ok(true) => Found
      case Ok(false) => FindQuestion(section[1..], q)
  }

  /**
   * The answer loop: each captured record loses its TTL and has its AAAA
   * address read, the pattern has its AAAA address read again, and the first
   * match ends the search. The pattern read on one round is the one the next
   * round starts from.
   */
  function FindAnswer(section: seq<Record>, p: Record): Search
  {
    if section == [] then NotFound
    else
      match PrepareAnswer(section[0])
      case Err(f) => Raised(f)
      case Ok(d) =>
        match NormalizeAaaa(p)
        case Err(f) => Raised(f)
        case Ok(p') =>
          match MatchRecord(d, p')
          case Err(f) => Raised(f)
          case Ok(true) => Found
          case Ok(false) => FindAnswer(section[1..], p')
  }

  /** The section the answer loop reads. */
  function AnswerSection(dig: DigResult, additional: bool): seq<Record> {
    if additional then dig.additional else dig.answer
  }

  method AssertHaveQuestion(dig: DigResult, question: Record) returns (s: Search)
    ensures s == FindQuestion(dig.question, question)
  {
    var i := 0;
    while i < |dig.question|
      invariant 0 <= i <= |dig.question|
      invariant FindQuestion(dig.question, question) == FindQuestion(dig.question[i..], question)
    {
      var m := MatchRecord(dig.question[i], question);
      if m.Err? {
        return Raised(m.error);
      }
      if m.value {
        return Found;
      }
      assert dig.question[i..][1..] == dig.question[i + 1..];
      i := i + 1;
    }
    return NotFound;
  }

  method AssertHaveAnswer(dig: DigResult, record: Record, additional: bool) returns (s: Search)
    ensures s == FindAnswer(AnswerSection(dig, additional), record)
  {
    var section := if additional then dig.additional else dig.answer;
    var pattern := record;
    var i := 0;
    while i < |section|
      invariant 0 <= i <= |section|
      invariant FindAnswer(section, record) == FindAnswer(section[i..], pattern)
    {
      var digAnswer := PrepareAnswer(section[i]);
      if digAnswer.Err? {
        return Raised(digAnswer.error);
      }
      var normalized := NormalizeAaaa(pattern);
      if normalized.Err? {
        return Raised(normalized.error);
      }
      pattern := normalized.value;
      var m := MatchRecord(digAnswer.value, pattern);
      if m.Err? {
        return Raised(m.error);
      }
      if m.value {
        return Found;
      }
      assert section[i..][1..] == section[i + 1..];
      i := i + 1;
    }
    return NotFound;
  }

  // ---------------------------------------------------------------------------
  // The whole check

  /** Every question pattern from position `from` on is found, or the first failure. */
  function AllQuestionsFound(section: seq<Record>, patterns: seq<Record>, from: nat): Outcome
    decreases |patterns|
  {
    if patterns == [] then Success
    else
      match FindQuestion(section, patterns[0])
      case Found => AllQuestionsFound(section, patterns[1..], from + 1)
      case NotFound => Failed(QuestionNotFound(from))
      case Raised(f) => Failed(Exception(f))
  }

  /** Every answer (or additional) pattern from position `from` on is found, or the first failure. */
  function AllAnswersFound(section: seq<Record>, patterns: seq<Record>, from: nat, additional: bool): Outcome
    decreases |patterns|
  {
    if patterns == [] then Success
    else
      match FindAnswer(section, patterns[0])
      case Found => AllAnswersFound(section, patterns[1..], from + 1, additional)
      case NotFound => Failed(if additional then AdditionalNotFound(from) else AnswerNotFound(from))
      case Raised(f) => Failed(Exception(f))
  }

  function CheckQuestions(dig: DigResult, expected: Option<seq<Record>>): Outcome
  {
    match expected
    case None => Success
    case Some(patterns) =>
      if |dig.question| != |patterns| then Failed(QuestionCountMismatch(|dig.question|, |patterns|))
      else AllQuestionsFound(dig.question, patterns, 0)
  }

  function CheckAnswers(dig: DigResult, expected: Option<seq<Record>>, additional: bool): Outcome
  {
    match expected
    case None => Success
    case Some(patterns) =>
      var section := AnswerSection(dig, additional);
      if !additional && |section| != |patterns| then Failed(AnswerCountMismatch(|section|, |patterns|))
      else if additional && |section| < |patterns| then Failed(AdditionalCountTooLow(|section|, |patterns|))
      else AllAnswersFound(section, patterns, 0, additional)
  }

  function ExpectedOpcode(expected: Expectation): string {
    expected.opcode.GetOr(QUERY)
  }

  function ExpectedStatus(expected: Expectation): string {
    expected.status.GetOr(NOERROR)
  }

  /** The checks in their fixed order; the first failure is the outcome. */
  function Verify(dig: DigResult, expected: Expectation): Outcome
  {
    if dig.opcode != ExpectedOpcode(expected) then Failed(UnexpectedOpcode(dig.opcode, ExpectedOpcode(expected)))
    else if dig.status != ExpectedStatus(expected) then Failed(UnexpectedStatus(dig.status, ExpectedStatus(expected)))
    else if CheckQuestions(dig, expected.question) != Success then CheckQuestions(dig, expected.question)
    else if CheckAnswers(dig, expected.answer, false) != Success then CheckAnswers(dig, expected.answer, false)
    else CheckAnswers(dig, expected.additional, true)
  }

  lemma TailOfSuffix<T>(s: seq<T>, j: nat)
    requires j < |s|
    ensures s[j..][1..] == s[j + 1..]
  {
  }

  /** Every question pattern in turn, stopping at the first that is not found. */
  method FindAllQuestions(dig: DigResult, questions: seq<Record>) returns (o: Outcome)
    ensures o == AllQuestionsFound(dig.question, questions, 0)
  {
    for j := 0 to |questions|
      invariant AllQuestionsFound(dig.question, questions, 0) == AllQuestionsFound(dig.question, questions[j..], j)
    {
      var s := AssertHaveQuestion(dig, questions[j]);
      if s.NotFound? {
        return Failed(QuestionNotFound(j));
      }
      if s.Raised? {
        return Failed(Exception(s.fault));
      }
      TailOfSuffix(questions, j);
    }
    return Success;
  }

  /** The question part of the check: the exact count, then every pattern in turn. */
  method CheckQuestionSection(dig: DigResult, questions: seq<Record>) returns (o: Outcome)
    ensures o == CheckQuestions(dig, Some(questions))
  {
    if |dig.question| != |questions| {
      return Failed(QuestionCountMismatch(|dig.question|, |questions|));
    }
    o := FindAllQuestions(dig, questions);
  }

  /** Every answer (or additional) pattern in turn, stopping at the first that is not found. */
  method FindAllAnswers(dig: DigResult, records: seq<Record>, additional: bool) returns (o: Outcome)
    ensures o == AllAnswersFound(AnswerSection(dig, additional), records, 0, additional)
  {
    ghost var section := AnswerSection(dig, additional);
    for j := 0 to |records|
      invariant AllAnswersFound(section, records, 0, additional) == AllAnswersFound(section, records[j..], j, additional)
    {
      var s := AssertHaveAnswer(dig, records[j], additional);
      if s.NotFound? {
        return Failed(if additional then AdditionalNotFound(j) else AnswerNotFound(j));
      }
      if s.Raised? {
        return Failed(Exception(s.fault));
      }
      TailOfSuffix(records, j);
    }
    return Success;
  }

  /** The answer or additional part of the check: the count (exact, or at least), then every pattern in turn. */
  method CheckAnswerSection(dig: DigResult, records: seq<Record>, additional: bool) returns (o: Outcome)
    ensures o == CheckAnswers(dig, Some(records), additional)
  {
    var count := if additional then |dig.additional| else |dig.answer|;
    if !additional && count != |records| {
      return Failed(AnswerCountMismatch(count, |records|));
    }
    if additional && count < |records| {
      return Failed(AdditionalCountTooLow(count, |records|));
    }
    o := FindAllAnswers(dig, records, additional);
  }

  method AssertDigResultMatches(dig: DigResult, expected: Expectation) returns (o: Outcome)
    ensures o == Verify(dig, expected)
  {
    var opcode := expected.opcode.GetOr(QUERY);
    if dig.opcode != opcode {
      return Failed(UnexpectedOpcode(dig.opcode, opcode));
    }
    var status := expected.status.GetOr(NOERROR);
    if dig.status != status {
      return Failed(UnexpectedStatus(dig.status, status));
    }
    if expected.question.Some? {
      o := CheckQuestionSection(dig, expected.question.value);
      if o != Success {
        return;
      }
    }
    if expected.answer.Some? {
      o := CheckAnswerSection(dig, expected.answer.value, false);
      if o != Success {
        return;
      }
    }
    if expected.additional.Some? {
      o := CheckAnswerSection(dig, expected.additional.value, true);
      return;
    }
    return Success;
  }
}

=== FILE: wrappers.dfy ===
/** Option and Result values shared by the address parser and the matcher. */
module Wrappers {

  /** A value that may be absent: a failed parse, or a key left out of an expectation. */
  datatype Option<+T> = None | Some(value: T) {

    /** The value, or `default` when it is absent (Python's `dict.get(key, default)`). */
    function GetOr(default: T): T {
      match this
      case Some(v) => v
      case None => default
    }
  }

  /** Either a value or the error that would have been raised instead of returning it. */
  datatype Result<+T, +E> = Ok(value: T) | Err(error: E)
}
